=== FILE: README.md ===
# Update scheduling and commit of the wx-react runtime

This project is a Dafny model of `UpdateStrategy.js`, the part of the wx-react
mini-program runtime that decides when the component tree is rendered again and
hands the result to the host. It covers the following:

- The module state: `inRenderPhase`, `shouldMerge` and `oldChildren`.
- `performUpdater`: queue an updater on an instance, mark its path to the root
  dirty, ask for a root update.
- `unstable_batchedUpdates`: run a function with updates merged, then render once.
- `setUpdateTagToRoot`: the dirty-path marking loop.
- `updateRoot`: a guarded render pass, teardown of removed instances, then the commit.
- `renderPage`: an unguarded render pass followed by the commit.
- `commitWork`: one `groupSetData` that walks the effect list forward and ends
  with `setData({}, cb)`.
- `commitLifeCycles`: walks the effect list backward and calls `componentDidMount`,
  `componentDidUpdate` and the `setState` callbacks.

How the runtime's objects are represented:

- **Instances** live in an arena, an `array<Instance>` indexed by instance
  number. The parent reference `_p` is an index into it.
- **Acyclicity** of the parent chain is a precondition. A ghost rank decreases
  strictly from child to parent.
- **The effect list** is a pool of records linked by `nextEffect` and
  `preEffect` indices, with its first and last record.
- **The reconciler** (`render`, `renderNextValidComps`, `resetEffect`) is not
  modelled. A `RenderResult` parameter supplies what one render pass produces:
  the instances as it leaves them, the `performUpdater` calls component code
  makes while it runs, a well-formed effect list, and the instances it removed.
  A render runs with `inRenderPhase` set, so those calls go through
  `performUpdater` and stop at `updateRoot`'s guard.
- **`getChangePath`** is a function-valued field of the scheduler.
- **Everything observable** goes into a trace of events: render passes,
  teardowns, `setData` calls inside a group, lifecycle hooks and callbacks.
- **The completion callback** of the final `setData({}, cb)` waits in `pending`
  until the host confirms it (`HostConfirm`). It then runs
  `unstable_batchedUpdates` over `commitLifeCycles(lastEffect)`, followed by the
  updates the hooks request.

Each in-place method of the `UpdateStrategy` class is proved equal to a
specification function on a value `View` of the state. The properties are
proved as lemmas about those functions.

Files:

- `base.dfy`: values and `Reverse`.
- `events.dfy`: the trace.
- `instances.dfy`: instances, the queue push and the dirty marking.
- `effects.dfy`: the linked effect list.
- `commit.dfy`: commitWork's walk and commitLifeCycles.
- `scheduler.dfy`: the scheduler state and the entry points.

## Model

| member | source | states |
|---|---|---|
| `Instances.Enqueue` | packages/wx-react/miniprogram_dist/UpdateStrategy.js:24 | the updater is appended at the end of that instance's queue; every other instance, and every other field, is unchanged |
| `Instances.PushUpdater` | packages/wx-react/miniprogram_dist/UpdateStrategy.js:24 | the array afterwards is `Enqueue` of the array before |
| `Instances.SetUpdateTagToRoot` | packages/wx-react/miniprogram_dist/UpdateStrategy.js:45-53 | the loop terminates on an acyclic parent chain, and the array afterwards is `SetUpdateTag` of the array before |
| `Instances.SetUpdateTag` | packages/wx-react/miniprogram_dist/UpdateStrategy.js:45-53 | marking changes no parent reference, so the parent chain stays acyclic |
| `Instances.MarkAncestors` | packages/wx-react/miniprogram_dist/UpdateStrategy.js:48-52 | the walk changes only `didChildUpdate` and keeps the arena's size |
| `Instances.UnmarkedPath` | packages/wx-react/miniprogram_dist/UpdateStrategy.js:49 | the instances the walk visits are in the arena, from `p` upward, strictly above the instance whose parent is `p` |
| `Instances.MarkAncestorsExact` | packages/wx-react/miniprogram_dist/UpdateStrategy.js:48-52 | afterwards an instance is marked if and only if it was marked before or lies on the unmarked path above the start |
| `Instances.UnmarkedPathIsPrefix` | packages/wx-react/miniprogram_dist/UpdateStrategy.js:49 | the walk stops at the first marked ancestor: its path is a prefix of the ancestors, all unmarked, followed by a marked ancestor or the top |
| `Instances.SetUpdateTagExact` | packages/wx-react/miniprogram_dist/UpdateStrategy.js:45-53 | `didSelfUpdate` is set on the instance alone; `didChildUpdate` is set exactly on the unmarked ancestors up to the first marked one; no other field changes |
| `Instances.MarkAncestorsCloses` | packages/wx-react/miniprogram_dist/UpdateStrategy.js:48-52 | when only the start's children may have an unmarked parent, the walk leaves every ancestor marked and every marked instance with a marked parent |
| `Instances.ClosedAncestorsMarked` | packages/wx-react/miniprogram_dist/UpdateStrategy.js:49 | stopping at a marked ancestor is sound: when every marked instance's parent is marked, all ancestors above it are marked |
| `Instances.SetUpdateTagMarksRootPath` | packages/wx-react/miniprogram_dist/UpdateStrategy.js:45-53 | if every marked instance had a marked parent, then afterwards the instance is dirty, all its ancestors are marked, and that invariant still holds |
| `Effects.ForwardOrder` | packages/wx-react/miniprogram_dist/UpdateStrategy.js:144-181 | the `nextEffect` walk from `firstEffect`: empty exactly when there is no first effect, starts at it, follows `nextEffect` from each record to the next, and meets at most as many records as the list holds |
| `Effects.BackwardOrder` | packages/wx-react/miniprogram_dist/UpdateStrategy.js:198-218 | the `preEffect` walk from `lastEffect`: empty exactly when there is no last effect, starts at it, follows `preEffect` from each record to the next, and meets at most as many records as the list holds |
| `Effects.LinkedOrderUnique` | packages/wx-react/miniprogram_dist/UpdateStrategy.js:144-145 | a list whose records are linked both ways in some order is well formed, and the `nextEffect` walk meets the records in exactly that order |
| `Effects.DistinctBound` | packages/wx-react/miniprogram_dist/UpdateStrategy.js:145 | a walk that never revisits a record is no longer than the pool, so the forward walk ends |
| `Effects.BackwardIsReverse` | packages/wx-react/miniprogram_dist/UpdateStrategy.js:198-218 | on a well-formed list the `preEffect` walk from the last record meets the records in exactly the reverse of the `nextEffect` order |
| `Effects.PreInvertsNext` | packages/wx-react/miniprogram_dist/UpdateStrategy.js:180 | on a well-formed list `preEffect` is the inverse of `nextEffect` |
| `Commit.Payload` | packages/wx-react/miniprogram_dist/UpdateStrategy.js:152-178 | what one record sends: nothing to a HOC or `_myOutStyle === false` instance; otherwise the STYLE data, `{_r}` for INIT, and for UPDATE `getChangePath(_r, _or)` itself, exactly when it is not empty |
| `Commit.Walk` | packages/wx-react/miniprogram_dist/UpdateStrategy.js:144-181 | the `nextEffect` loop over the records of an order, threading the instances through; the arena keeps its size |
| `Commit.CommitSpec` | packages/wx-react/miniprogram_dist/UpdateStrategy.js:125-189 | commitWork changes nothing on the instances except `_or`, and only by releasing it |
| `Commit.WalkFrame` | packages/wx-react/miniprogram_dist/UpdateStrategy.js:143-181 | the walk changes nothing except `_or`, and only by releasing it |
| `Commit.WalkEmitsVisibleSetData` | packages/wx-react/miniprogram_dist/UpdateStrategy.js:152-178 | the walk calls nothing but `setData`, and only on instances that are neither HOC nor `_myOutStyle === false` |
| `Commit.WalkUntouched` | packages/wx-react/miniprogram_dist/UpdateStrategy.js:143-181 | an instance that no UPDATE record refers to is left exactly as it was |
| `Commit.WalkReleasesOldRendered` | packages/wx-react/miniprogram_dist/UpdateStrategy.js:169-173 | after the walk every visible UPDATE instance has `_or` null |
| `Commit.WalkMatchesEmitted` | packages/wx-react/miniprogram_dist/UpdateStrategy.js:143-181 | when no two UPDATE records refer to the same instance (other records may share one), the walk sends, in forward order, exactly one patch per record that calls for one: the STYLE data, `{_r}` for INIT, a non-empty change path for UPDATE, and nothing for skipped instances or empty change paths |
| `Commit.CommitShape` | packages/wx-react/miniprogram_dist/UpdateStrategy.js:125-189 | a null first effect emits nothing and changes nothing; otherwise one group opens, only visible `setData` calls follow, and the final `setData({}, cb)` comes last before the group closes |
| `Commit.LifecycleEvents` | packages/wx-react/miniprogram_dist/UpdateStrategy.js:204-216 | for one record only hooks and callbacks are called: none for STYLE, `componentDidMount` exactly for INIT when the instance has it, `componentDidUpdate` exactly for UPDATE when it has it and then before any callback, each on the record's own instance; a callback is called exactly when the record is UPDATE and lists it |
| `Commit.CallbacksOnly` | packages/wx-react/miniprogram_dist/UpdateStrategy.js:211-215 | `callbacks.forEach(cb => cb && cb())` calls exactly the non-null callbacks, only those, in the order they were registered |
| `Commit.RunHooks` | packages/wx-react/miniprogram_dist/UpdateStrategy.js:200-216 | for one record: nothing for STYLE, `componentDidMount` if present for INIT, `componentDidUpdate` if present then every non-null callback in order for UPDATE |
| `Commit.CommitLifeCycles` | packages/wx-react/miniprogram_dist/UpdateStrategy.js:197-220 | the calls are those of the records met by the `preEffect` walk from the last record, which is exactly the reverse of the `nextEffect` order |
| `Commit.LifecycleOnlyHooks` | packages/wx-react/miniprogram_dist/UpdateStrategy.js:197-220 | the lifecycle walk calls only hooks and callbacks |
| `Scheduler.CommitView` | packages/wx-react/miniprogram_dist/UpdateStrategy.js:125-189 | commitWork on the whole state changes nothing on the instances except releasing `_or` |
| `Scheduler.UpdateRootSpec` | packages/wx-react/miniprogram_dist/UpdateStrategy.js:55-75 | updateRoot only adds to the trace, keeps the guards, and when it runs leaves the instances as the render left them (its own writes, then the requests made during it), changed by the commit only by releasing `_or` |
| `Scheduler.RenderPageSpec` | packages/wx-react/miniprogram_dist/UpdateStrategy.js:77-93 | renderPage only adds to the trace and leaves the instances as the render left them, changed by the commit only by releasing `_or` |
| `Scheduler.PerformSpec` | packages/wx-react/miniprogram_dist/UpdateStrategy.js:23-28 | performUpdater keeps the parent chain acyclic, every pending list walkable and both guards as they were, and only adds to the trace |
| `Scheduler.RunOne` | packages/wx-react/miniprogram_dist/UpdateStrategy.js:23-28 | one step of `func`: a `performUpdater` call, or the `commitLifeCycles` walk of lines 197-220 from a hook; it keeps the parent chain acyclic, every pending list walkable and both guards, and only adds to the trace |
| `Scheduler.RunSpec` | packages/wx-react/miniprogram_dist/UpdateStrategy.js:39 | running a batched function keeps the parent chain acyclic, every pending list walkable and both guards as they were, and only adds to the trace |
| `Scheduler.BatchSpec` | packages/wx-react/miniprogram_dist/UpdateStrategy.js:31-43 | a batch keeps the parent chain acyclic and every pending list walkable, and only adds to the trace |
| `Scheduler.HostConfirmSpec` | packages/wx-react/miniprogram_dist/UpdateStrategy.js:183-187 | the host's callback keeps the parent chain acyclic and every pending list walkable, and only adds to the trace |
| `Scheduler.QueueAndMark` | packages/wx-react/miniprogram_dist/UpdateStrategy.js:24-26 | performUpdater under a guard: queuing and marking keep the parent chain acyclic |
| `Scheduler.QueueAll` | packages/wx-react/miniprogram_dist/UpdateStrategy.js:64-66 | the requests made during a render, one after the other, keep the parent chain acyclic |
| `Scheduler.Rendered` | packages/wx-react/miniprogram_dist/UpdateStrategy.js:64-66 | the arena a render leaves keeps the parent chain acyclic |
| `Scheduler.PerformWhileGuarded` | packages/wx-react/miniprogram_dist/UpdateStrategy.js:23-27 | while `shouldMerge` or `inRenderPhase` is set, performUpdater only queues the updater and marks the path to the root: no render, no teardown, no commit, no trace |
| `Scheduler.QueueAndMarkGrows` | packages/wx-react/miniprogram_dist/UpdateStrategy.js:24-26 | queuing and marking appends the updater to that instance's queue alone and only ever sets dirty flags, `didSelfUpdate` and `didChildUpdate` alike |
| `Scheduler.QueueAllKeeps` | packages/wx-react/miniprogram_dist/UpdateStrategy.js:60-66 | after the requests made during a render, each request's updater is queued on its instance and the instance is dirty |
| `Scheduler.RenderRequestsStayQueued` | packages/wx-react/miniprogram_dist/UpdateStrategy.js:55-75 | updateRoot starts no further pass for a request component code makes during its render; in this model, where requests follow the reconciler's writes, the request is still queued and its instance dirty when updateRoot returns |
| `Scheduler.Unmounts` | packages/wx-react/miniprogram_dist/UpdateStrategy.js:70 | one teardown per removed instance, in the order they were removed |
| `Scheduler.UnmountsTearDown` | packages/wx-react/miniprogram_dist/UpdateStrategy.js:70 | `invokeWillUnmount(oldChildren)` tears down exactly those instances, in order, and renders nothing |
| `Scheduler.CommitQuiet` | packages/wx-react/miniprogram_dist/UpdateStrategy.js:125-189 | commitWork neither renders nor tears anything down |
| `Scheduler.UpdateRootRuns` | packages/wx-react/miniprogram_dist/UpdateStrategy.js:55-75 | with both guards off: exactly one render pass, first; every instance removed since the last run is torn down once, in order, before any `setData`; afterwards `oldChildren` is empty and `inRenderPhase` is false |
| `Scheduler.RenderPageDefersTeardown` | packages/wx-react/miniprogram_dist/UpdateStrategy.js:77-93 | renderPage renders once with no guard and leaves `inRenderPhase` false; it tears nothing down, and the instances it removed stay in `oldChildren` |
| `Scheduler.PerformUpdaterQueues` | packages/wx-react/miniprogram_dist/UpdateStrategy.js:23-28 | while a batch is open or a render is under way: exactly one updater is appended to the instance's queue, no other queue changes, and nothing is rendered, committed or torn down; with both guards off: exactly one render, and the instances are those the render left |
| `Scheduler.PerformUpdaterMarks` | packages/wx-react/miniprogram_dist/UpdateStrategy.js:23-28 | under either guard, if every marked instance had a marked parent, then afterwards the instance is dirty, all its ancestors are marked, and that invariant holds |
| `Scheduler.RunQueues` | packages/wx-react/miniprogram_dist/UpdateStrategy.js:39 | a batched function, run with `shouldMerge` set, queues on every instance exactly the updaters it asks for, in order |
| `Scheduler.BatchQueues` | packages/wx-react/miniprogram_dist/UpdateStrategy.js:31-43 | a batch that ends without a render (nested, or a render under way) leaves on every instance exactly the updaters its function asks for, in order; one that ends with updateRoot's render leaves the instances that render left |
| `Scheduler.RunMerged` | packages/wx-react/miniprogram_dist/UpdateStrategy.js:32-39 | while `shouldMerge` is set, every step renders nothing and tears nothing down, and the guards, `oldChildren` and pending callbacks stay as they were |
| `Scheduler.BatchRendersAtMostOnce` | packages/wx-react/miniprogram_dist/UpdateStrategy.js:31-43 | a nested call renders nothing and leaves `oldChildren` and `shouldMerge` as they were; an outermost call renders exactly once (none if a render is under way) and leaves `shouldMerge` false |
| `Scheduler.RunSplit` | packages/wx-react/miniprogram_dist/UpdateStrategy.js:39 | running a function's steps in two parts is running them in one |
| `Scheduler.BatchStartsWith` | packages/wx-react/miniprogram_dist/UpdateStrategy.js:38-42 | a batch's trace begins with what its function's first step does |
| `Scheduler.LifecyclesQuiet` | packages/wx-react/miniprogram_dist/UpdateStrategy.js:197-220 | commitLifeCycles neither renders nor tears anything down |
| `Scheduler.HostConfirmHooksFirst` | packages/wx-react/miniprogram_dist/UpdateStrategy.js:183-187 | when the host calls back a commit, its hooks and callbacks all run, in reverse `nextEffect` order, before anything they request is rendered or torn down |
| `Scheduler.HostConfirmRendersAtMostOnce` | packages/wx-react/miniprogram_dist/UpdateStrategy.js:183-187 | the host's callback renders at most once, however many updates its hooks request |
| `Scheduler.UpdateStrategy.CommitRecord` | packages/wx-react/miniprogram_dist/UpdateStrategy.js:146-178 | one iteration of commitWork's loop, in place, equals `CommitStep` |
| `Scheduler.UpdateStrategy.CommitLoop` | packages/wx-react/miniprogram_dist/UpdateStrategy.js:144-181 | the loop, in place, appends the walk's events and leaves the instances as the walk does |
| `Scheduler.UpdateStrategy.CommitGroup` | packages/wx-react/miniprogram_dist/UpdateStrategy.js:143-188 | the `groupSetData` block, in place, equals `CommitSpec` |
| `Scheduler.UpdateStrategy.CommitWork` | packages/wx-react/miniprogram_dist/UpdateStrategy.js:125-189 | in place: the new state is `CommitView` of the old, and the state stays valid |
| `Scheduler.UpdateStrategy.ApplyRender` | packages/wx-react/miniprogram_dist/UpdateStrategy.js:65 | in place: the arena becomes the instances as the reconciler leaves them |
| `Scheduler.UpdateStrategy.RequestsDuringRender` | packages/wx-react/miniprogram_dist/UpdateStrategy.js:60-66 | in place: each request made during a render goes through `PerformUpdater` and stops at the guard, so the arena afterwards is `QueueAll` of the arena before, and nothing else changes |
| `Scheduler.UpdateStrategy.Reconcile` | packages/wx-react/miniprogram_dist/UpdateStrategy.js:64-66 | in place: a render pass adds one render event and leaves the arena as `Rendered` |
| `Scheduler.UpdateStrategy.UpdateRoot` | packages/wx-react/miniprogram_dist/UpdateStrategy.js:55-75 | in place: nothing changes when `shouldMerge` or `inRenderPhase` is set; otherwise the new state is `UpdateRootSpec` of the old |
| `Scheduler.UpdateStrategy.RenderPage` | packages/wx-react/miniprogram_dist/UpdateStrategy.js:77-93 | in place: the new state is `RenderPageSpec` of the old |
| `Scheduler.UpdateStrategy.PerformUpdater` | packages/wx-react/miniprogram_dist/UpdateStrategy.js:23-28 | in place: the new state is `PerformSpec` of the old |
| `Scheduler.UpdateStrategy.RunStep` | packages/wx-react/miniprogram_dist/UpdateStrategy.js:23-28 | in place, with `shouldMerge` set: one step of a batched function, a `performUpdater` call or the lifecycle walk of lines 197-220, leaves the state `RunOne` of the old |
| `Scheduler.UpdateStrategy.Run` | packages/wx-react/miniprogram_dist/UpdateStrategy.js:39 | in place, only with `shouldMerge` set, as `func` only ever runs: the new state is `RunSpec` of the old |
| `Scheduler.UpdateStrategy.BatchedUpdates` | packages/wx-react/miniprogram_dist/UpdateStrategy.js:31-43 | in place: the new state is `BatchSpec` of the old |
| `Scheduler.UpdateStrategy.HostConfirm` | packages/wx-react/miniprogram_dist/UpdateStrategy.js:183-187 | in place: the pending callback is removed, and the new state is `HostConfirmSpec` of the old |
| `Scheduler.UpdateStrategy.constructor` | packages/wx-react/miniprogram_dist/UpdateStrategy.js:18-21 | the module as loaded: both guards false, `oldChildren` empty, nothing traced or pending |

## Left out

- The reconciler (`render`, `renderNextValidComps`) and `resetEffect` are not
  part of this model. A render pass is a `RenderResult` parameter. Its arena
  may be any arena of the same size whose parent chain is acyclic under the
  same rank. The model does not tie it to the arena the render started from,
  so it does not state that the render consumes queued updaters, clears dirty
  flags or rewrites `_r` and `_or` in any particular way.
- The arena has a fixed size: a render mounts no new instances. Re-parenting
  is limited to what the same rank allows.
- The `performUpdater` calls component code makes during a render are applied
  after the reconciler's own writes. How they interleave with those writes is
  not modelled: in the program the reconciler may still reach the requesting
  instance later in the same pass and use up its updater, which the model
  does not show.
- The same `RenderResult` serves every `updateRoot` in one batch or host
  callback. Only one of them renders, because the others stop at a guard.
- `invokeWillUnmount` is not part of this model. Its call on `oldChildren` is
  one `WillUnmount` event per instance, and the teardown hooks are assumed to
  request no update.
- Unmounts: the teardown is inert. In the program line 66 clears
  `inRenderPhase` before line 70 runs `invokeWillUnmount(oldChildren)`, and
  line 71 empties `oldChildren` only afterwards; at the end of a batch line 40
  has already cleared `shouldMerge`. So a `componentWillUnmount` that requests
  an update (a child calling a parent's callback that calls `setState`)
  re-enters `updateRoot` with no guard set: a second render pass, a second
  `invokeWillUnmount` over the same `oldChildren`, and that nested commit's
  `setData` calls before the outer loop's remaining teardowns.
- UpdateRootRuns: "exactly one render pass", "each removed instance torn down
  once" and "torn down before any `setData`" hold only under the inert
  teardown above. With a teardown hook that requests an update, lines 66-71
  render again and may tear an instance down twice.
- `getChangePath` is not part of this model. It is an arbitrary function
  (`changePath`), and only whether its patch is empty matters.
- `renderApp` and `instanceManager.setWxCompInst` are left out: the first only
  prepares the root context, the second records the host page in the
  runtime's instance registry.
- `getTopWx`, `getCurrentPages` and `getWxInst` are not recorded in the trace.
  The trace has no event for them, and the final `setData({}, cb)` does not
  record which page receives it. The trace records the group's start and end,
  each `setData` on an instance, the final `setData`, render passes,
  teardowns, hooks and callbacks. The host's asynchronous completion callback
  is the explicit `HostConfirm` step. Concurrency with the host is not modelled.
- Exceptions are not modelled. Lines 38-40 and 64-66 have no `try`/`finally`.
  So a `func`, hook or render that throws in the program leaves `shouldMerge`
  or `inRenderPhase` set for good, and every later `updateRoot` then returns
  at its guard. In the model no step can fail, so that state is never reached.
- Updates a hook or callback requests during `commitLifeCycles` are modelled
  as `Perform` steps after the whole lifecycle walk, in the same batch. Inside
  the batch they only queue and mark, and the hooks read no field they change,
  so the order between the two is not observable in this model.
- A batched function is a sequence of `Perform` and `LifecycleWalk` steps.
  Arbitrary JavaScript in `func` is not modelled.
- A request made while `inRenderPhase` or `shouldMerge` is set is only queued
  and marked. The code itself schedules no later render for it; it is
  rendered by whichever `updateRoot` runs next.
- Acyclicity of `_p` and well-formedness of the effect list are preconditions.
  The source neither checks nor reports them.
- Numbers in rendered data and STYLE payloads are integers (`Value.Num`). The
  program's numbers are doubles, so fractional values are not represented; the
  commit passes payloads through without looking at them.
- Object identity and aliasing between instances are replaced by indices into
  the arena.

=== FILE: base.dfy ===
/** Values shared by every part of the update pipeline. */
module Base {

  datatype Option<+T> = None | Some(value: T)

  /** Index of an instance in the instance arena (an object reference in the runtime). */
  type InstId = nat

  /** Identity of a completion callback passed with setState. */
  type CallbackId = nat

  /** A JSON-like value: what a component renders (`_r`) and what the host stores. */
  datatype Value =
    | Null
    | Bool(b: bool)
    | Num(n: int)
    | Str(s: string)
    | Arr(items: seq<Value>)
    | Obj(fields: map<string, Value>)

  /** A flat key-value patch, the argument of the host's setData. */
  type Patch = map<string, Value>

  /** The view of `s` backwards: element k of the result is element |s|-1-k of `s`. */
  function Reverse<T>(s: seq<T>): (r: seq<T>)
    ensures |r| == |s|
    ensures forall k :: 0 <= k < |s| ==> r[k] == s[|s| - 1 - k]
  {
    seq(|s|, k requires 0 <= k < |s| => s[|s| - 1 - k])
  }

  /** Reversing a sequence extended at the back puts the new element in front. */
  lemma ReverseSnoc<T>(s: seq<T>, x: T)
    ensures Reverse(s + [x]) == [x] + Reverse(s)
  {
    var a, b := Reverse(s + [x]), [x] + Reverse(s);
    assert |a| == |b|;
    forall k | 0 <= k < |a| ensures a[k] == b[k] {
      if k > 0 {
        assert a[k] == (s + [x])[|s| - k];
      }
    }
  }

  /** Reversing a sequence extended at the front puts the new element at the back. */
  lemma ReverseCons<T>(x: T, s: seq<T>)
    ensures Reverse([x] + s) == Reverse(s) + [x]
  {
    var a, b := Reverse([x] + s), Reverse(s) + [x];
    assert |a| == |b|;
    forall k | 0 <= k < |a| ensures a[k] == b[k] {
      if k < |s| {
        assert a[k] == ([x] + s)[|s| - k];
      }
    }
  }
}

=== FILE: commit.dfy ===
/**
 * The commit: commitWork walks the effect list forward and sends each host
 * node its data, commitLifeCycles walks it backward and calls the lifecycle
 * hooks and setState callbacks.
 */
module Commit {
  import opened Base
  import opened Events
  import opened Instances
  import opened Effects

  /** getChangePath(_r, _or): the patch that takes the host's data from `_or` to `_r`. */
  type ChangePath = (Value, Option<Value>) -> Patch

  /** HOC wrappers and instances whose `_myOutStyle` is false have no host node. */
  predicate HostVisible(inst: Instance)
  {
    !inst.isHoc && inst.myOutStyle != Some(false)
  }

  /** What wxInst.setData receives for one record in commitWork, None when nothing is sent. */
  function Payload(inst: Instance, r: EffectRecord, cp: ChangePath): (res: Option<Patch>)
    ensures res.Some? ==> HostVisible(inst)
    ensures HostVisible(inst) && r.tag != Update ==> res.Some?
    ensures res.Some? && r.tag == Style ==> res.value == r.data
    ensures res.Some? && r.tag == Init ==> res.value.Keys == {"_r"} && res.value["_r"] == inst.rendered
    ensures r.tag == Update ==> (res.Some? <==> HostVisible(inst) && |cp(inst.rendered, inst.oldRendered)| != 0)
    ensures res.Some? && r.tag == Update ==> res.value == cp(inst.rendered, inst.oldRendered) && |res.value| != 0
  {
    if !HostVisible(inst) then None
    else match r.tag
      case Style => Some(r.data)
      case Init => Some(map["_r" := inst.rendered])
      case Update =>
        var patch := cp(inst.rendered, inst.oldRendered);
        if |patch| != 0 then Some(patch) else None
  }

  /** The host events commitWork emits for one record. */
  function StepEvents(inst: Instance, r: EffectRecord, cp: ChangePath): seq<Event>
  {
    match Payload(inst, r, cp)
    case None => []
    case Some(patch) => [SetData(r.inst, patch)]
  }

  /** One iteration of commitWork's loop: its host events and the instances afterwards (`_or` released). */
  function CommitStep(nodes: seq<Instance>, r: EffectRecord, cp: ChangePath): (seq<Event>, seq<Instance>)
    requires r.inst < |nodes|
  {
    var inst := nodes[r.inst];
    var after := if HostVisible(inst) && r.tag == Update then nodes[r.inst := inst.(oldRendered := None)] else nodes;
    (StepEvents(inst, r, cp), after)
  }

  /** Every record of `order` is in the pool and is about an instance of the arena. */
  predicate Visitable(nodes: seq<Instance>, recs: seq<EffectRecord>, order: seq<nat>)
  {
    forall k :: 0 <= k < |order| ==> order[k] < |recs| && recs[order[k]].inst < |nodes|
  }

  /** commitWork's loop over the records of `order`, threading the instances through. */
  function Walk(nodes: seq<Instance>, recs: seq<EffectRecord>, order: seq<nat>, cp: ChangePath): (res: (seq<Event>, seq<Instance>))
    requires Visitable(nodes, recs, order)
    ensures |res.1| == |nodes|
    decreases |order|
  {
    if order == [] then ([], nodes)
    else
      var prev := Walk(nodes, recs, order[..|order| - 1], cp);
      var step := CommitStep(prev.1, recs[order[|order| - 1]], cp);
      (prev.0 + step.0, step.1)
  }

  /** Only the `_or` fields may differ between the two arenas, and each only by being released. */
  predicate SameButOld(before: seq<Instance>, after: seq<Instance>)
  {
    && |after| == |before|
    && (forall j :: 0 <= j < |before| ==> after[j] == before[j].(oldRendered := after[j].oldRendered))
    && (forall j :: 0 <= j < |before| ==> after[j].oldRendered == before[j].oldRendered || after[j].oldRendered.None?)
  }

  /** The commit walk changes nothing but `_or`, and that only by releasing it. */
  lemma {:induction false} WalkFrame(nodes: seq<Instance>, recs: seq<EffectRecord>, order: seq<nat>, cp: ChangePath)
    requires Visitable(nodes, recs, order)
    ensures SameButOld(nodes, Walk(nodes, recs, order, cp).1)
    decreases |order|
  {
    if order != [] {
      var prefix := order[..|order| - 1];
      assert Visitable(nodes, recs, prefix);
      WalkFrame(nodes, recs, prefix, cp);
    }
  }

  /**
   * commitWork(firstEffect, lastEffect): nothing when the list is empty;
   * otherwise, inside one groupSetData, the walk's setData calls followed by
   * the final setData({}, cb).
   */
  function CommitSpec(nodes: seq<Instance>, l: EffectList, cp: ChangePath): (res: (seq<Event>, seq<Instance>))
    requires WellFormed(l) && RefersWithin(l, |nodes|)
    ensures SameButOld(nodes, res.1)
  {
    if l.first.None? then ([], nodes)
    else
      var order := ForwardOrder(l);
      assert Visitable(nodes, l.records, order) by {
        forall k | 0 <= k < |order| ensures l.records[order[k]].inst < |nodes| {
          assert l.records[order[k]] in l.records;
        }
      }
      WalkFrame(nodes, l.records, order, cp);
      var w := Walk(nodes, l.records, order, cp);
      ([GroupBegin] + w.0 + [FinalSetData, GroupEnd], w.1)
  }

  /** The walk over the first k+1 records of `order` extends the walk over the first k by the k-th record's events and `_or` release. */
  lemma WalkSnoc(nodes: seq<Instance>, recs: seq<EffectRecord>, order: seq<nat>, k: nat, cp: ChangePath)
    requires Visitable(nodes, recs, order) && k < |order|
    ensures Visitable(nodes, recs, order[..k]) && Visitable(nodes, recs, order[..k + 1])
    ensures var prev := Walk(nodes, recs, order[..k], cp);
      var step := CommitStep(prev.1, recs[order[k]], cp);
      Walk(nodes, recs, order[..k + 1], cp) == (prev.0 + step.0, step.1)
  {
    assert order[..k + 1][..k] == order[..k];
  }

  /** The setData calls one would expect from each record alone, judged on the instances before the walk. */
  function Emitted(nodes: seq<Instance>, recs: seq<EffectRecord>, order: seq<nat>, cp: ChangePath): seq<Event>
    requires Visitable(nodes, recs, order)
    decreases |order|
  {
    if order == [] then []
    else
      var r := recs[order[|order| - 1]];
      Emitted(nodes, recs, order[..|order| - 1], cp) + StepEvents(nodes[r.inst], r, cp)
  }

  /** No two UPDATE records of `order` are about the same instance. */
  predicate UpdatesDistinct(recs: seq<EffectRecord>, order: seq<nat>)
    requires forall k :: 0 <= k < |order| ==> order[k] < |recs|
  {
    forall j, k :: 0 <= j < k < |order| && recs[order[j]].tag == Update && recs[order[k]].tag == Update ==>
      recs[order[j]].inst != recs[order[k]].inst
  }

  // ---------------------------------------------------------------------------
  // Lemmas about the commit walk
  // ---------------------------------------------------------------------------

  /** Every event is a setData call on an instance that has a host node. */
  predicate VisibleSetDataOnly(ev: seq<Event>, nodes: seq<Instance>)
  {
    forall k :: 0 <= k < |ev| ==> ev[k].SetData? && ev[k].inst < |nodes| && HostVisible(nodes[ev[k].inst])
  }

  /** The walk only calls setData, and only on instances that have a host node. */
  lemma {:induction false} WalkEmitsVisibleSetData(nodes: seq<Instance>, recs: seq<EffectRecord>, order: seq<nat>, cp: ChangePath)
    requires Visitable(nodes, recs, order)
    ensures VisibleSetDataOnly(Walk(nodes, recs, order, cp).0, nodes)
    decreases |order|
  {
    if order != [] {
      var prefix := order[..|order| - 1];
      assert Visitable(nodes, recs, prefix);
      WalkEmitsVisibleSetData(nodes, recs, prefix, cp);
      WalkFrame(nodes, recs, prefix, cp);
      var prev := Walk(nodes, recs, prefix, cp);
      var r := recs[order[|order| - 1]];
      assert HostVisible(prev.1[r.inst]) == HostVisible(nodes[r.inst]);
      var step := StepEvents(prev.1[r.inst], r, cp);
      assert step == [] || (step == [step[0]] && step[0].SetData? && step[0].inst == r.inst && HostVisible(nodes[r.inst]));
      var ev := Walk(nodes, recs, order, cp).0;
      assert ev == prev.0 + step;
      assert VisibleSetDataOnly(prev.0, nodes);
      forall k | 0 <= k < |ev|
        ensures ev[k].SetData? && ev[k].inst < |nodes| && HostVisible(nodes[ev[k].inst])
      {
        if k >= |prev.0| {
          assert ev[k] == step[k - |prev.0|];
        } else {
          assert ev[k] == prev.0[k];
        }
      }
    }
  }

  /** An instance that no UPDATE record of the walk is about is left exactly as it was. */
  lemma {:induction false} WalkUntouched(nodes: seq<Instance>, recs: seq<EffectRecord>, order: seq<nat>, cp: ChangePath, j: InstId)
    requires Visitable(nodes, recs, order) && j < |nodes|
    requires forall k :: 0 <= k < |order| && recs[order[k]].tag == Update ==> recs[order[k]].inst != j
    ensures Walk(nodes, recs, order, cp).1[j] == nodes[j]
    decreases |order|
  {
    if order != [] {
      var prefix := order[..|order| - 1];
      assert Visitable(nodes, recs, prefix);
      WalkUntouched(nodes, recs, prefix, cp, j);
    }
  }

  /** After the walk every UPDATE record's instance that has a host node has released `_or`. */
  lemma {:induction false} WalkReleasesOldRendered(nodes: seq<Instance>, recs: seq<EffectRecord>, order: seq<nat>, cp: ChangePath)
    requires Visitable(nodes, recs, order)
    ensures var after := Walk(nodes, recs, order, cp).1;
      forall k :: 0 <= k < |order| && recs[order[k]].tag == Update && HostVisible(nodes[recs[order[k]].inst]) ==>
        after[recs[order[k]].inst].oldRendered.None?
    decreases |order|
  {
    if order != [] {
      var prefix := order[..|order| - 1];
      assert Visitable(nodes, recs, prefix);
      WalkReleasesOldRendered(nodes, recs, prefix, cp);
      WalkFrame(nodes, recs, prefix, cp);
      forall k | 0 <= k < |prefix| ensures prefix[k] == order[k] { }
    }
  }

  /**
   * When no two UPDATE records are about the same instance, the walk sends
   * exactly the setData calls the records call for one by one, in forward
   * order. Only UPDATE reads `_or`, the one field the walk changes, so other
   * records may share an instance freely.
   */
  lemma {:induction false} WalkMatchesEmitted(nodes: seq<Instance>, recs: seq<EffectRecord>, order: seq<nat>, cp: ChangePath)
    requires Visitable(nodes, recs, order)
    requires UpdatesDistinct(recs, order)
    ensures Walk(nodes, recs, order, cp).0 == Emitted(nodes, recs, order, cp)
    decreases |order|
  {
    if order != [] {
      var n := |order| - 1;
      var prefix := order[..n];
      assert Visitable(nodes, recs, prefix);
      assert UpdatesDistinct(recs, prefix);
      WalkMatchesEmitted(nodes, recs, prefix, cp);
      var r := recs[order[n]];
      var prev := Walk(nodes, recs, prefix, cp);
      if r.tag == Update {
        forall k | 0 <= k < |prefix| && recs[prefix[k]].tag == Update
          ensures recs[prefix[k]].inst != r.inst
        {
          assert prefix[k] == order[k];
        }
        WalkUntouched(nodes, recs, prefix, cp, r.inst);
        assert prev.1[r.inst] == nodes[r.inst];
      } else {
        WalkFrame(nodes, recs, prefix, cp);
        assert prev.1[r.inst] == nodes[r.inst].(oldRendered := prev.1[r.inst].oldRendered);
      }
      assert StepEvents(prev.1[r.inst], r, cp) == StepEvents(nodes[r.inst], r, cp);
    }
  }

  /**
   * commitWork with no first effect does nothing; otherwise it opens one
   * group, sends only setData calls to instances that have a host node, and
   * ends with the final setData({}, cb) before the group closes.
   */
  lemma CommitShape(nodes: seq<Instance>, l: EffectList, cp: ChangePath)
    requires WellFormed(l) && RefersWithin(l, |nodes|)
    ensures var (ev, after) := CommitSpec(nodes, l, cp);
      && (l.first.None? ==> ev == [] && after == nodes)
      && (l.first.Some? ==>
            && |ev| >= 3 && ev[0] == GroupBegin
            && ev[|ev| - 2] == FinalSetData && ev[|ev| - 1] == GroupEnd
            && VisibleSetDataOnly(ev[1..|ev| - 2], nodes))
  {
    if l.first.Some? {
      var order := ForwardOrder(l);
      assert Visitable(nodes, l.records, order) by {
        forall k | 0 <= k < |order| ensures l.records[order[k]].inst < |nodes| {
          assert l.records[order[k]] in l.records;
        }
      }
      WalkEmitsVisibleSetData(nodes, l.records, order, cp);
      var w := Walk(nodes, l.records, order, cp).0;
      var ev := [GroupBegin] + w + [FinalSetData, GroupEnd];
      assert ev[1..|ev| - 2] == w;
    }
  }

  // ---------------------------------------------------------------------------
  // The lifecycle walk
  // ---------------------------------------------------------------------------

  /** The non-null callbacks of a record, called in order. */
  function CallbackEvents(cbs: seq<Option<CallbackId>>): seq<Event>
    decreases |cbs|
  {
    if cbs == [] then []
    else
      var last := cbs[|cbs| - 1];
      CallbackEvents(cbs[..|cbs| - 1]) + (if last.Some? then [Callback(last.value)] else [])
  }

  /** What commitLifeCycles does for one record: nothing for STYLE, didMount for INIT, didUpdate then callbacks for UPDATE. */
  function LifecycleEvents(nodes: seq<Instance>, r: EffectRecord): (res: seq<Event>)
    requires r.inst < |nodes|
    ensures HooksOnly(res)
    ensures r.tag == Style ==> res == []
    ensures DidMount(r.inst) in res <==> r.tag == Init && nodes[r.inst].hasDidMount
    ensures DidUpdate(r.inst) in res <==> r.tag == Update && nodes[r.inst].hasDidUpdate
    ensures forall k :: 0 <= k < |res| && (res[k].DidMount? || res[k].DidUpdate?) ==> res[k].inst == r.inst
    ensures forall c: CallbackId :: Callback(c) in res <==> r.tag == Update && Some(c) in r.callbacks
    ensures r.tag == Update && nodes[r.inst].hasDidUpdate ==> |res| > 0 && res[0] == DidUpdate(r.inst)
  {
    CallbacksOnly(r.callbacks);
    match r.tag
    case Style => []
    case Init => if nodes[r.inst].hasDidMount then [DidMount(r.inst)] else []
    case Update =>
      (if nodes[r.inst].hasDidUpdate then [DidUpdate(r.inst)] else []) + CallbackEvents(r.callbacks)
  }

  /** The hooks called when the records of `visits` are visited in that order. */
  function LifecycleTrace(nodes: seq<Instance>, recs: seq<EffectRecord>, visits: seq<nat>): seq<Event>
    requires Visitable(nodes, recs, visits)
    decreases |visits|
  {
    if visits == [] then []
    else
      LifecycleTrace(nodes, recs, visits[..|visits| - 1]) + LifecycleEvents(nodes, recs[visits[|visits| - 1]])
  }

  /** Every event is a lifecycle hook or a setState callback. */
  predicate HooksOnly(t: seq<Event>)
  {
    forall k :: 0 <= k < |t| ==> t[k].DidMount? || t[k].DidUpdate? || t[k].Callback?
  }

  /** Every record reached from the first effect is about an instance of the arena, in either direction. */
  lemma CommittableVisitable(nodes: seq<Instance>, l: EffectList)
    requires RefersWithin(l, |nodes|)
    ensures Visitable(nodes, l.records, ForwardOrder(l))
    ensures Visitable(nodes, l.records, Reverse(ForwardOrder(l)))
  {
    var order := ForwardOrder(l);
    forall k | 0 <= k < |order| ensures l.records[order[k]].inst < |nodes| {
      assert l.records[order[k]] in l.records;
    }
  }

  /** The hooks commitLifeCycles(lastEffect) calls for a whole list: the records in reverse nextEffect order. */
  function Lifecycles(nodes: seq<Instance>, l: EffectList): seq<Event>
    requires RefersWithin(l, |nodes|)
  {
    CommittableVisitable(nodes, l);
    LifecycleTrace(nodes, l.records, Reverse(ForwardOrder(l)))
  }

  /** A lifecycle walk only calls hooks and callbacks: it never renders and never talks to the host. */
  lemma {:induction false} LifecycleOnlyHooks(nodes: seq<Instance>, recs: seq<EffectRecord>, visits: seq<nat>)
    requires Visitable(nodes, recs, visits)
    ensures HooksOnly(LifecycleTrace(nodes, recs, visits))
    decreases |visits|
  {
    if visits != [] {
      var prefix := visits[..|visits| - 1];
      assert Visitable(nodes, recs, prefix);
      LifecycleOnlyHooks(nodes, recs, prefix);
      var r := recs[visits[|visits| - 1]];
      var own := LifecycleEvents(nodes, r);
      assert HooksOnly(own);
      var t := LifecycleTrace(nodes, recs, visits);
      var before := LifecycleTrace(nodes, recs, prefix);
      assert HooksOnly(before);
      assert t == before + own;
      forall k | 0 <= k < |t| ensures t[k].DidMount? || t[k].DidUpdate? || t[k].Callback? {
        if k >= |before| { assert t[k] == own[k - |before|]; } else { assert t[k] == before[k]; }
      }
    }
  }

  /**
   * The callback calls are exactly the non-null callbacks: each one, and only
   * those, in the order they were registered (the calls made for any prefix
   * of the callbacks come first).
   */
  lemma {:induction false} CallbacksOnly(cbs: seq<Option<CallbackId>>)
    ensures var t := CallbackEvents(cbs);
      && |t| <= |cbs|
      && (forall k :: 0 <= k < |t| ==> t[k].Callback?)
      && (forall c: CallbackId :: Callback(c) in t <==> Some(c) in cbs)
      && (forall n :: 0 <= n <= |cbs| ==> CallbackEvents(cbs[..n]) <= t)
    decreases |cbs|
  {
    if cbs != [] {
      var m := |cbs| - 1;
      var init := cbs[..m];
      CallbacksOnly(init);
      var t := CallbackEvents(cbs);
      var own := if cbs[m].Some? then [Callback(cbs[m].value)] else [];
      assert t == CallbackEvents(init) + own;
      forall c: CallbackId ensures Callback(c) in t <==> Some(c) in cbs {
        assert Callback(c) in t <==> Callback(c) in CallbackEvents(init) || Callback(c) in own;
        assert Some(c) in cbs <==> Some(c) in init || cbs[m] == Some(c) by {
          assert cbs == init + [cbs[m]];
        }
      }
      forall n | 0 <= n <= |cbs| ensures CallbackEvents(cbs[..n]) <= t {
        if n == |cbs| {
          assert cbs[..n] == cbs;
        } else {
          assert init[..n] == cbs[..n];
        }
      }
    }
  }

  /** Visiting one more record, going backward, adds that record's hooks at the end. */
  lemma VisitOneMore(nodes: seq<Instance>, recs: seq<EffectRecord>, order: seq<nat>, k: nat)
    requires Visitable(nodes, recs, order) && 0 < k <= |order|
    ensures Visitable(nodes, recs, Reverse(order[k..]))
    ensures Visitable(nodes, recs, Reverse(order[k - 1..]))
    ensures LifecycleTrace(nodes, recs, Reverse(order[k - 1..])) ==
            LifecycleTrace(nodes, recs, Reverse(order[k..])) + LifecycleEvents(nodes, recs[order[k - 1]])
  {
    var visited := Reverse(order[k..]);
    assert order[k - 1..] == [order[k - 1]] + order[k..];
    ReverseCons(order[k - 1], order[k..]);
    assert (visited + [order[k - 1]])[..|visited|] == visited;
  }

  /** The hooks commitLifeCycles calls for one record. */
  method RunHooks(nodes: seq<Instance>, r: EffectRecord) returns (calls: seq<Event>)
    requires r.inst < |nodes|
    ensures calls == LifecycleEvents(nodes, r)
  {
    calls := [];
    if r.tag == Init {
      if nodes[r.inst].hasDidMount {
        calls := calls + [DidMount(r.inst)];
      }
    }
    if r.tag == Update {
      if nodes[r.inst].hasDidUpdate {
        calls := calls + [DidUpdate(r.inst)];
      }
      ghost var before := calls;
      for j := 0 to |r.callbacks|
        invariant calls == before + CallbackEvents(r.callbacks[..j])
      {
        assert r.callbacks[..j + 1][..j] == r.callbacks[..j];
        if r.callbacks[j].Some? {
          calls := calls + [Callback(r.callbacks[j].value)];
        }
      }
      assert r.callbacks[..|r.callbacks|] == r.callbacks;
    }
  }

  /**
   * commitLifeCycles(lastEffect): walks preEffect from the last record and
   * returns the hooks and callbacks it calls, in order. They are those of the
   * records in exactly the reverse of the nextEffect order.
   */
  method CommitLifeCycles(nodes: seq<Instance>, l: EffectList) returns (calls: seq<Event>)
    requires WellFormed(l) && RefersWithin(l, |nodes|)
    ensures Visitable(nodes, l.records, BackwardOrder(l))
    ensures calls == LifecycleTrace(nodes, l.records, BackwardOrder(l))
    ensures calls == Lifecycles(nodes, l)
  {
    ghost var order := ForwardOrder(l);
    assert Visitable(nodes, l.records, order) by {
      forall k | 0 <= k < |order| ensures l.records[order[k]].inst < |nodes| {
        assert l.records[order[k]] in l.records;
      }
    }
    var effect := l.last;
    ghost var k := |order|;
    calls := [];
    assert Reverse(order[k..]) == [];
    while effect.Some?
      invariant 0 <= k <= |order|
      invariant effect == if k == 0 then None else Some(order[k - 1])
      invariant Visitable(nodes, l.records, Reverse(order[k..]))
      invariant calls == LifecycleTrace(nodes, l.records, Reverse(order[k..]))
      decreases k
    {
      var r := l.records[effect.value];
      var own := RunHooks(nodes, r);
      VisitOneMore(nodes, l.records, order, k);
      calls := calls + own;
      effect := r.pre;
      k := k - 1;
    }
    assert order[0..] == order;
    BackwardIsReverse(l);
  }
}

=== FILE: effects.dfy ===
/**
 * The effect list a render pass produces: effect records in a pool, linked
 * forward by `nextEffect` and backward by `preEffect`, with the first and last
 * record handed to the commit. Links are indices into the pool.
 */
module Effects {
  import opened Base

  /** STYLE_EFFECT, INIT_EFFECT and UPDATE_EFFECT. */
  datatype Tag = Style | Init | Update

  datatype EffectRecord = EffectRecord(
    tag: Tag,
    inst: InstId,                          // the instance the record is about
    data: Patch,                           // a STYLE record's ready-made patch
    callbacks: seq<Option<CallbackId>>,    // setState callbacks; None for an empty slot
    next: Option<nat>,                     // nextEffect
    pre: Option<nat>)                      // preEffect

  /** What resetEffect hands over: the records and the first and last of the list. */
  datatype EffectList = EffectList(records: seq<EffectRecord>, first: Option<nat>, last: Option<nat>)

  /** The records visited from `cur` by following nextEffect, at most `fuel` of them. */
  function Follow(recs: seq<EffectRecord>, cur: Option<nat>, fuel: nat): (r: seq<nat>)
    ensures |r| <= fuel
    ensures forall k :: 0 <= k < |r| ==> r[k] < |recs|
    ensures r != [] ==> cur == Some(r[0])
    ensures forall k :: 0 <= k < |r| - 1 ==> recs[r[k]].next == Some(r[k + 1])
    decreases fuel
  {
    if fuel == 0 || cur.None? || cur.value >= |recs| then []
    else [cur.value] + Follow(recs, recs[cur.value].next, fuel - 1)
  }

  /** The records visited from `cur` by following preEffect, at most `fuel` of them. */
  function FollowBack(recs: seq<EffectRecord>, cur: Option<nat>, fuel: nat): (r: seq<nat>)
    ensures |r| <= fuel
    ensures forall k :: 0 <= k < |r| ==> r[k] < |recs|
    ensures r != [] ==> cur == Some(r[0])
    ensures forall k :: 0 <= k < |r| - 1 ==> recs[r[k]].pre == Some(r[k + 1])
    decreases fuel
  {
    if fuel == 0 || cur.None? || cur.value >= |recs| then []
    else [cur.value] + FollowBack(recs, recs[cur.value].pre, fuel - 1)
  }

  /** The order in which the commit walk meets the records: forward from the first. */
  function ForwardOrder(l: EffectList): (r: seq<nat>)
    ensures |r| <= |l.records|
    ensures forall k :: 0 <= k < |r| ==> r[k] < |l.records|
    ensures r != [] <==> l.first.Some? && l.first.value < |l.records|
    ensures r != [] ==> l.first == Some(r[0])
    ensures forall k :: 0 <= k < |r| - 1 ==> l.records[r[k]].next == Some(r[k + 1])
  {
    Follow(l.records, l.first, |l.records|)
  }

  /** The order in which the lifecycle walk meets the records: backward from the last. */
  function BackwardOrder(l: EffectList): (r: seq<nat>)
    ensures |r| <= |l.records|
    ensures forall k :: 0 <= k < |r| ==> r[k] < |l.records|
    ensures r != [] <==> l.last.Some? && l.last.value < |l.records|
    ensures r != [] ==> l.last == Some(r[0])
    ensures forall k :: 0 <= k < |r| - 1 ==> l.records[r[k]].pre == Some(r[k + 1])
  {
    FollowBack(l.records, l.last, |l.records|)
  }

  predicate Distinct(s: seq<nat>)
  {
    forall j, k :: 0 <= j < k < |s| ==> s[j] != s[k]
  }

  /**
   * `order` lists distinct records of the pool, the first and last of the
   * list are its ends, nextEffect leads from each to the one after it and
   * preEffect from each to the one before it.
   */
  predicate LinkedAs(l: EffectList, order: seq<nat>)
  {
    && (forall k :: 0 <= k < |order| ==> order[k] < |l.records|)
    && Distinct(order)
    && (order == [] ==> l.first.None? && l.last.None?)
    && (order != [] ==>
          && l.first == Some(order[0]) && l.last == Some(order[|order| - 1])
          && l.records[order[0]].pre.None? && l.records[order[|order| - 1]].next.None?)
    && (forall k :: 0 <= k < |order| - 1 ==>
          l.records[order[k]].next == Some(order[k + 1]) && l.records[order[k + 1]].pre == Some(order[k]))
  }

  /** A fully linked list: the records met going forward are linked both ways. */
  predicate WellFormed(l: EffectList)
  {
    LinkedAs(l, ForwardOrder(l))
  }

  /** Every record of the pool is about an instance of an arena with `n` instances. */
  predicate RefersWithin(l: EffectList, n: nat)
  {
    forall r :: r in l.records ==> r.inst < n
  }

  // ---------------------------------------------------------------------------
  // Lemmas
  // ---------------------------------------------------------------------------

  function Elements(s: seq<nat>): set<nat>
  {
    set x | x in s
  }

  lemma {:induction false} DistinctElements(s: seq<nat>)
    requires Distinct(s)
    ensures |Elements(s)| == |s|
  {
    if s != [] {
      var rest := s[1..];
      assert Distinct(rest);
      DistinctElements(rest);
      assert s[0] !in rest by {
        forall k | 0 <= k < |rest| ensures rest[k] != s[0] {
          assert rest[k] == s[k + 1];
        }
      }
      assert forall x :: x in s <==> x == s[0] || x in rest by {
        assert s == [s[0]] + rest;
      }
      assert Elements(s) == {s[0]} + Elements(rest);
    }
  }

  /** A list of distinct records of a pool is no longer than the pool. */
  lemma DistinctBound(s: seq<nat>, n: nat)
    requires Distinct(s)
    requires forall k :: 0 <= k < |s| ==> s[k] < n
    ensures |s| <= n
  {
    var all: seq<nat> := seq(n, i requires 0 <= i < n => i);
    DistinctElements(s);
    DistinctElements(all);
    forall x | x in Elements(s) ensures x in Elements(all) {
      assert all[x] == x;
    }
    var range := Elements(all);
    assert range == Elements(s) + (range - Elements(s));
  }

  /** Following nextEffect from the k-th record of a linked order visits the rest of that order. */
  lemma {:induction false} FollowLinked(l: EffectList, order: seq<nat>, k: nat, fuel: nat)
    requires LinkedAs(l, order)
    requires k < |order| && fuel >= |order| - k
    ensures Follow(l.records, Some(order[k]), fuel) == order[k..]
    decreases |order| - k
  {
    if k + 1 < |order| {
      FollowLinked(l, order, k + 1, fuel - 1);
    }
  }

  /** The k-th record of a linked order points forward to the next one, or nowhere after the last. */
  lemma LinkedNext(l: EffectList, order: seq<nat>, k: nat)
    requires LinkedAs(l, order) && k < |order|
    ensures l.records[order[k]].next == if k + 1 < |order| then Some(order[k + 1]) else None
  {
  }

  /** A linked order is the forward order: the list's order is determined by its links. */
  lemma LinkedOrderUnique(l: EffectList, order: seq<nat>)
    requires LinkedAs(l, order)
    ensures ForwardOrder(l) == order
    ensures WellFormed(l)
  {
    if order != [] {
      DistinctBound(order, |l.records|);
      FollowLinked(l, order, 0, |l.records|);
    }
  }

  /** Following preEffect from the k-th record visits the first k+1 records, last to first. */
  lemma {:induction false} FollowBackLinked(l: EffectList, order: seq<nat>, k: nat, fuel: nat)
    requires LinkedAs(l, order)
    requires k < |order| && fuel > k
    ensures FollowBack(l.records, Some(order[k]), fuel) == Reverse(order[..k + 1])
  {
    if k == 0 {
      assert order[..1] == [order[0]];
    } else {
      FollowBackLinked(l, order, k - 1, fuel - 1);
      assert order[..k + 1] == order[..k] + [order[k]];
      ReverseSnoc(order[..k], order[k]);
    }
  }

  /** The lifecycle walk visits the records in exactly the reverse of the commit walk's order. */
  lemma BackwardIsReverse(l: EffectList)
    requires WellFormed(l)
    ensures BackwardOrder(l) == Reverse(ForwardOrder(l))
  {
    var order := ForwardOrder(l);
    if order != [] {
      DistinctBound(order, |l.records|);
      FollowBackLinked(l, order, |order| - 1, |l.records|);
      assert order[..|order|] == order;
    }
  }

  /** On a well-formed list, preEffect is the inverse of nextEffect. */
  lemma PreInvertsNext(l: EffectList)
    requires WellFormed(l)
    ensures var o := ForwardOrder(l);
      forall a, b :: 0 <= a < |o| && 0 <= b < |o| ==>
        (l.records[o[a]].next == Some(o[b]) <==> l.records[o[b]].pre == Some(o[a]))
  {
    var o := ForwardOrder(l);
    forall a, b | 0 <= a < |o| && 0 <= b < |o|
      ensures l.records[o[a]].next == Some(o[b]) <==> l.records[o[b]].pre == Some(o[a])
    {
      var r := l.records;
      if a + 1 < |o| {
        assert r[o[a]].next == Some(o[a + 1]);
        assert r[o[a]].next == Some(o[b]) <==> b == a + 1;
      } else {
        assert r[o[a]].next.None?;
      }
      if b > 0 {
        assert r[o[b]].pre == Some(o[b - 1]);
        assert r[o[b]].pre == Some(o[a]) <==> a == b - 1;
      } else {
        assert r[o[b]].pre.None?;
      }
    }
  }
}

=== FILE: events.dfy ===
/**
 * The observable behaviour of the pipeline, recorded as a trace: the reconciler
 * running, teardown hooks, calls to the host's setData inside one groupSetData,
 * and lifecycle hooks.
 */
module Events {
  import opened Base

  datatype Event =
    | RenderPass                       // one run of the reconciler over the tree
    | WillUnmount(inst: InstId)        // teardown of a removed instance
    | GroupBegin                       // topWx.groupSetData opens one host round-trip
    | SetData(inst: InstId, data: Patch) // the instance's host node receives a patch
    | FinalSetData                     // topWx.setData({}, cb): the callback is registered
    | GroupEnd                         // the groupSetData block closes
    | DidMount(inst: InstId)           // componentDidMount
    | DidUpdate(inst: InstId)          // componentDidUpdate
    | Callback(cb: CallbackId)         // a setState completion callback

  /** Number of render passes recorded in a trace. */
  function Renders(t: seq<Event>): nat
  {
    if t == [] then 0 else (if t[0].RenderPass? then 1 else 0) + Renders(t[1..])
  }

  /** Counting render passes distributes over concatenation. */
  lemma {:induction false} RendersAppend(a: seq<Event>, b: seq<Event>)
    ensures Renders(a + b) == Renders(a) + Renders(b)
  {
    if a == [] {
      assert a + b == b;
    } else {
      assert (a + b)[1..] == a[1..] + b;
      RendersAppend(a[1..], b);
    }
  }

  /** A trace with no RenderPass event counts no render pass, and conversely. */
  lemma {:induction false} RendersZero(t: seq<Event>)
    ensures Renders(t) == 0 <==> forall k :: 0 <= k < |t| ==> !t[k].RenderPass?
  {
    if t != [] {
      RendersZero(t[1..]);
      assert forall k :: 1 <= k < |t| ==> t[k] == t[1..][k - 1];
    }
  }

  /** The instances torn down in a trace, in order. */
  function Teardowns(t: seq<Event>): seq<InstId>
  {
    if t == [] then []
    else Teardowns(t[..|t| - 1]) + (if t[|t| - 1].WillUnmount? then [t[|t| - 1].inst] else [])
  }

  /** Collecting teardowns distributes over concatenation. */
  lemma {:induction false} TeardownsAppend(a: seq<Event>, b: seq<Event>)
    ensures Teardowns(a + b) == Teardowns(a) + Teardowns(b)
    decreases |b|
  {
    if b == [] {
      assert a + b == a;
    } else {
      var n := |b| - 1;
      assert (a + b)[..|a + b| - 1] == a + b[..n];
      TeardownsAppend(a, b[..n]);
    }
  }

  /** Neither a render pass nor a teardown happens in the trace. */
  predicate Quiet(t: seq<Event>)
  {
    forall k :: 0 <= k < |t| ==> !t[k].RenderPass? && !t[k].WillUnmount?
  }

  /** A quiet trace counts no render pass and tears nothing down. */
  lemma {:induction false} QuietCounts(t: seq<Event>)
    requires Quiet(t)
    ensures Renders(t) == 0 && Teardowns(t) == []
    decreases |t|
  {
    RendersZero(t);
    if t != [] {
      assert Quiet(t[..|t| - 1]);
      QuietCounts(t[..|t| - 1]);
    }
  }

  lemma QuietAppend(a: seq<Event>, b: seq<Event>)
    requires Quiet(a) && Quiet(b)
    ensures Quiet(a + b)
  {
    assert forall k :: 0 <= k < |a| ==> (a + b)[k] == a[k];
    assert forall k :: |a| <= k < |a + b| ==> (a + b)[k] == b[k - |a|];
  }
}

=== FILE: instances.dfy ===
/**
 * Component instances and the dirty-path marking of the scheduler.
 *
 * The instances live in an arena: an array indexed by InstId whose elements
 * are the fields of each instance that this part of the runtime reads or
 * writes. The parent reference `_p` is an index. Acyclicity of the parent
 * chain is stated by a rank that strictly decreases from child to parent.
 */
module Instances {
  import opened Base

  /** An update descriptor queued by setState or forceUpdate; its content is not inspected here. */
  datatype Updater = Updater(id: nat)

  datatype Instance = Instance(
    parent: Option<InstId>,      // _p, None at the top of the tree
    updateQueue: seq<Updater>,   // pending update descriptors
    didSelfUpdate: bool,         // the instance itself must re-render
    didChildUpdate: bool,        // some descendant must re-render
    rendered: Value,             // _r, the current rendered description
    oldRendered: Option<Value>,  // _or, the previous one; None once released
    isHoc: bool,                 // a HocComponent: no host node of its own
    myOutStyle: Option<bool>,    // _myOutStyle; None when the field is unset
    hasDidMount: bool,           // componentDidMount is defined
    hasDidUpdate: bool)          // componentDidUpdate is defined

  /** Every parent reference is in the arena and has a smaller rank than its child. */
  ghost predicate RankedBy(s: seq<Instance>, rank: seq<nat>)
  {
    && |rank| == |s|
    && forall i :: 0 <= i < |s| && s[i].parent.Some? ==>
         s[i].parent.value < |s| && rank[s[i].parent.value] < rank[i]
  }

  /** A rank bounding the walk that starts at `p` (0 when there is nothing to walk). */
  ghost function Height(p: Option<InstId>, rank: seq<nat>): nat
  {
    if p.Some? && p.value < |rank| then rank[p.value] + 1 else 0
  }

  /** The ancestors reached from `p` by following `_p` to the top of the tree. */
  ghost function Ancestors(s: seq<Instance>, p: Option<InstId>, rank: seq<nat>): (r: seq<InstId>)
    requires RankedBy(s, rank)
    requires p.Some? ==> p.value < |s|
    ensures forall k :: 0 <= k < |r| ==> r[k] < |s|
    decreases Height(p, rank)
  {
    if p.None? then [] else [p.value] + Ancestors(s, s[p.value].parent, rank)
  }

  /**
   * The instances that setUpdateTagToRoot marks when its walk starts at `p`:
   * the ancestors up to, and not including, the first one already marked.
   */
  ghost function UnmarkedPath(s: seq<Instance>, p: Option<InstId>, rank: seq<nat>): (r: seq<InstId>)
    requires RankedBy(s, rank)
    requires p.Some? ==> p.value < |s|
    ensures forall k :: 0 <= k < |r| ==> r[k] < |s| && rank[r[k]] < Height(p, rank)
    decreases Height(p, rank)
  {
    if p.None? || s[p.value].didChildUpdate then []
    else [p.value] + UnmarkedPath(s, s[p.value].parent, rank)
  }

  /** The loop of setUpdateTagToRoot, as a function of the instances and the start of the walk. */
  ghost function MarkAncestors(s: seq<Instance>, p: Option<InstId>, rank: seq<nat>): (r: seq<Instance>)
    requires RankedBy(s, rank)
    requires p.Some? ==> p.value < |s|
    ensures |r| == |s|
    ensures forall i :: 0 <= i < |s| ==> r[i] == s[i].(didChildUpdate := r[i].didChildUpdate)
    decreases Height(p, rank)
  {
    if p.None? || s[p.value].didChildUpdate then s
    else
      var q := p.value;
      var s' := s[q := s[q].(didChildUpdate := true)];
      assert RankedBy(s', rank) by {
        assert forall i :: 0 <= i < |s| ==> s'[i].parent == s[i].parent;
      }
      MarkAncestors(s', s[q].parent, rank)
  }

  /** setUpdateTagToRoot: the instance is marked itself, then its unmarked ancestors. */
  ghost function SetUpdateTag(s: seq<Instance>, i: InstId, rank: seq<nat>): (r: seq<Instance>)
    requires RankedBy(s, rank) && i < |s|
    ensures RankedBy(r, rank)
    ensures |r| == |s| && forall j :: 0 <= j < |s| ==> r[j].parent == s[j].parent
  {
    var s' := s[i := s[i].(didSelfUpdate := true)];
    assert RankedBy(s', rank) by {
      assert forall j :: 0 <= j < |s| ==> s'[j].parent == s[j].parent;
    }
    MarkAncestors(s', s[i].parent, rank)
  }

  /** performUpdater's `inst.updateQueue.push(updater)`. */
  function Enqueue(s: seq<Instance>, i: InstId, u: Updater): (r: seq<Instance>)
    requires i < |s|
    ensures |r| == |s|
    ensures r[i].updateQueue == s[i].updateQueue + [u]
    ensures forall j :: 0 <= j < |s| && j != i ==> r[j] == s[j]
    ensures r[i] == s[i].(updateQueue := r[i].updateQueue)
  {
    s[i := s[i].(updateQueue := s[i].updateQueue + [u])]
  }

  /** Every instance that is marked as having a dirty child has a marked parent. */
  ghost predicate Closed(s: seq<Instance>)
  {
    forall i :: 0 <= i < |s| && s[i].didChildUpdate && s[i].parent.Some? && s[i].parent.value < |s| ==>
      s[s[i].parent.value].didChildUpdate
  }

  /** Closed, except that a marked instance may have an unmarked parent when that parent is `p`. */
  ghost predicate ClosedUpTo(s: seq<Instance>, p: Option<InstId>)
  {
    forall i ::
      (0 <= i < |s| && s[i].didChildUpdate && s[i].parent.Some? && s[i].parent.value < |s| &&
       !s[s[i].parent.value].didChildUpdate) ==> s[i].parent == p
  }

  // ---------------------------------------------------------------------------
  // Lemmas about the marking walk
  // ---------------------------------------------------------------------------

  /** Changing an instance above the walk's start does not change the instances the walk marks. */
  lemma {:induction false} UnmarkedPathAbove(s: seq<Instance>, t: seq<Instance>, p: Option<InstId>, q: InstId, rank: seq<nat>)
    requires RankedBy(s, rank) && RankedBy(t, rank) && |t| == |s| && q < |s|
    requires forall j :: 0 <= j < |s| && j != q ==> t[j] == s[j]
    requires p.Some? ==> p.value < |s| && rank[p.value] < rank[q]
    ensures UnmarkedPath(t, p, rank) == UnmarkedPath(s, p, rank)
    decreases Height(p, rank)
  {
    if p.Some? && !s[p.value].didChildUpdate {
      UnmarkedPathAbove(s, t, s[p.value].parent, q, rank);
    }
  }

  /** Ancestors depend on the parent references only. */
  lemma {:induction false} AncestorsSameParents(s: seq<Instance>, t: seq<Instance>, p: Option<InstId>, rank: seq<nat>)
    requires RankedBy(s, rank) && RankedBy(t, rank) && |t| == |s|
    requires forall j :: 0 <= j < |s| ==> t[j].parent == s[j].parent
    requires p.Some? ==> p.value < |s|
    ensures Ancestors(t, p, rank) == Ancestors(s, p, rank)
    decreases Height(p, rank)
  {
    if p.Some? {
      AncestorsSameParents(s, t, s[p.value].parent, rank);
    }
  }

  /**
   * The walk marks exactly the instances of UnmarkedPath: afterwards an
   * instance is marked if and only if it was marked before or lies on that path.
   */
  lemma {:induction false} MarkAncestorsExact(s: seq<Instance>, p: Option<InstId>, rank: seq<nat>)
    requires RankedBy(s, rank)
    requires p.Some? ==> p.value < |s|
    ensures forall i :: 0 <= i < |s| ==>
      (MarkAncestors(s, p, rank)[i].didChildUpdate <==> s[i].didChildUpdate || i in UnmarkedPath(s, p, rank))
    decreases Height(p, rank)
  {
    if p.Some? && !s[p.value].didChildUpdate {
      var q := p.value;
      var s' := s[q := s[q].(didChildUpdate := true)];
      assert forall i :: 0 <= i < |s| ==> s'[i].parent == s[i].parent;
      assert RankedBy(s', rank);
      MarkAncestorsExact(s', s[q].parent, rank);
      UnmarkedPathAbove(s, s', s[q].parent, q, rank);
    }
  }

  /** UnmarkedPath is a prefix of the ancestors, all unmarked, followed by a marked ancestor or the top. */
  lemma {:induction false} UnmarkedPathIsPrefix(s: seq<Instance>, p: Option<InstId>, rank: seq<nat>)
    requires RankedBy(s, rank)
    requires p.Some? ==> p.value < |s|
    ensures var path, anc := UnmarkedPath(s, p, rank), Ancestors(s, p, rank);
      && |path| <= |anc|
      && path == anc[..|path|]
      && (forall k :: 0 <= k < |path| ==> !s[path[k]].didChildUpdate)
      && (|path| < |anc| ==> s[anc[|path|]].didChildUpdate)
    decreases Height(p, rank)
  {
    if p.Some? {
      UnmarkedPathIsPrefix(s, s[p.value].parent, rank);
    }
  }

  /** In a closed arena every ancestor of a marked instance is marked. */
  lemma {:induction false} ClosedAncestorsMarked(s: seq<Instance>, p: Option<InstId>, rank: seq<nat>)
    requires RankedBy(s, rank) && Closed(s)
    requires p.Some? ==> p.value < |s| && s[p.value].didChildUpdate
    ensures forall a :: a in Ancestors(s, p, rank) ==> s[a].didChildUpdate
    decreases Height(p, rank)
  {
    if p.Some? {
      ClosedAncestorsMarked(s, s[p.value].parent, rank);
    }
  }

  /**
   * When the only marked instances with an unmarked parent hang below `p`,
   * the walk from `p` leaves every ancestor marked and the arena closed.
   */
  lemma {:induction false} MarkAncestorsCloses(s: seq<Instance>, p: Option<InstId>, rank: seq<nat>)
    requires RankedBy(s, rank) && ClosedUpTo(s, p)
    requires p.Some? ==> p.value < |s|
    ensures var r := MarkAncestors(s, p, rank);
      Closed(r) && forall a :: a in Ancestors(s, p, rank) ==> r[a].didChildUpdate
    decreases Height(p, rank)
  {
    if p.None? || s[p.value].didChildUpdate {
      assert Closed(s);
      ClosedAncestorsMarked(s, p, rank);
    } else {
      var q := p.value;
      var s' := s[q := s[q].(didChildUpdate := true)];
      assert forall i :: 0 <= i < |s| ==> s'[i].parent == s[i].parent;
      assert RankedBy(s', rank);
      assert ClosedUpTo(s', s[q].parent);
      MarkAncestorsCloses(s', s[q].parent, rank);
      MarkAncestorsExact(s', s[q].parent, rank);
      AncestorsSameParents(s, s', s[q].parent, rank);
    }
  }

  /**
   * setUpdateTagToRoot(inst): the instance has didSelfUpdate set; an instance
   * gets didChildUpdate exactly when it had it or is an ancestor before the
   * first marked one; no other field of any instance changes.
   */
  lemma SetUpdateTagExact(s: seq<Instance>, i: InstId, rank: seq<nat>)
    requires RankedBy(s, rank) && i < |s|
    ensures var r, path := SetUpdateTag(s, i, rank), UnmarkedPath(s, s[i].parent, rank);
      && |r| == |s|
      && (forall j :: 0 <= j < |s| ==> r[j].didSelfUpdate == (s[j].didSelfUpdate || j == i))
      && (forall j :: 0 <= j < |s| ==> (r[j].didChildUpdate <==> s[j].didChildUpdate || j in path))
      && (forall j :: 0 <= j < |s| ==>
            r[j] == s[j].(didSelfUpdate := r[j].didSelfUpdate, didChildUpdate := r[j].didChildUpdate))
  {
    var s' := s[i := s[i].(didSelfUpdate := true)];
    assert RankedBy(s', rank) by {
      assert forall j :: 0 <= j < |s| ==> s'[j].parent == s[j].parent;
    }
    var r := MarkAncestors(s', s[i].parent, rank);
    assert r == SetUpdateTag(s, i, rank);
    MarkAncestorsExact(s', s[i].parent, rank);
    UnmarkedPathFlagsOnly(s, s', s[i].parent, rank);
    forall j | 0 <= j < |s|
      ensures r[j].didSelfUpdate == (s[j].didSelfUpdate || j == i)
      ensures r[j] == s[j].(didSelfUpdate := r[j].didSelfUpdate, didChildUpdate := r[j].didChildUpdate)
    {
      assert r[j] == s'[j].(didChildUpdate := r[j].didChildUpdate);
    }
  }

  /** UnmarkedPath depends on the parents and the didChildUpdate flags only. */
  lemma {:induction false} UnmarkedPathFlagsOnly(s: seq<Instance>, t: seq<Instance>, p: Option<InstId>, rank: seq<nat>)
    requires RankedBy(s, rank) && RankedBy(t, rank) && |t| == |s|
    requires forall j :: 0 <= j < |s| ==> t[j].parent == s[j].parent && t[j].didChildUpdate == s[j].didChildUpdate
    requires p.Some? ==> p.value < |s|
    ensures UnmarkedPath(t, p, rank) == UnmarkedPath(s, p, rank)
    decreases Height(p, rank)
  {
    if p.Some? && !s[p.value].didChildUpdate {
      UnmarkedPathFlagsOnly(s, t, s[p.value].parent, rank);
    }
  }

  /**
   * If every marked instance's parent was marked beforehand, then after
   * setUpdateTagToRoot(inst) every ancestor of inst is marked and that
   * property still holds.
   */
  lemma SetUpdateTagMarksRootPath(s: seq<Instance>, i: InstId, rank: seq<nat>)
    requires RankedBy(s, rank) && i < |s| && Closed(s)
    ensures var r := SetUpdateTag(s, i, rank);
      && r[i].didSelfUpdate
      && Closed(r)
      && forall a :: a in Ancestors(s, s[i].parent, rank) ==> r[a].didChildUpdate
  {
    var s' := s[i := s[i].(didSelfUpdate := true)];
    assert forall j :: 0 <= j < |s| ==> s'[j].parent == s[j].parent;
    assert RankedBy(s', rank);
    assert ClosedUpTo(s', s[i].parent);
    MarkAncestorsCloses(s', s[i].parent, rank);
    AncestorsSameParents(s, s', s[i].parent, rank);
  }

  // ---------------------------------------------------------------------------
  // The operations, in place on the arena
  // ---------------------------------------------------------------------------

  /** `inst.updateQueue.push(updater)` */
  method PushUpdater(nodes: array<Instance>, i: InstId, u: Updater)
    requires i < nodes.Length
    modifies nodes
    ensures nodes[..] == Enqueue(old(nodes[..]), i, u)
  {
    nodes[i] := nodes[i].(updateQueue := nodes[i].updateQueue + [u]);
  }

  /** One iteration of setUpdateTagToRoot's walk: mark `q`, then continue from its parent. */
  lemma MarkOneStep(s: seq<Instance>, q: InstId, rank: seq<nat>)
    requires RankedBy(s, rank) && q < |s| && !s[q].didChildUpdate
    ensures RankedBy(s[q := s[q].(didChildUpdate := true)], rank)
    ensures MarkAncestors(s, Some(q), rank) == MarkAncestors(s[q := s[q].(didChildUpdate := true)], s[q].parent, rank)
  {
    var s' := s[q := s[q].(didChildUpdate := true)];
    assert forall j :: 0 <= j < |s| ==> s'[j].parent == s[j].parent;
  }

  /** setUpdateTagToRoot: mark the instance, then walk `_p` while the parent is unmarked. */
  method SetUpdateTagToRoot(nodes: array<Instance>, ghost rank: seq<nat>, i: InstId)
    requires RankedBy(nodes[..], rank) && i < nodes.Length
    modifies nodes
    ensures nodes[..] == SetUpdateTag(old(nodes[..]), i, rank)
  {
    nodes[i] := nodes[i].(didSelfUpdate := true);
    assert forall j :: 0 <= j < nodes.Length ==> nodes[j].parent == old(nodes[j]).parent;
    assert RankedBy(nodes[..], rank);
    ghost var target := MarkAncestors(nodes[..], nodes[i].parent, rank);
    var p: Option<InstId> := nodes[i].parent;
    while p.Some? && !nodes[p.value].didChildUpdate
      invariant RankedBy(nodes[..], rank)
      invariant p.Some? ==> p.value < nodes.Length
      invariant MarkAncestors(nodes[..], p, rank) == target
      decreases Height(p, rank)
    {
      var q := p.value;
      MarkOneStep(nodes[..], q, rank);
      nodes[q] := nodes[q].(didChildUpdate := true);
      p := nodes[q].parent;
    }
  }
}

=== FILE: scheduler.dfy ===
/**
 * The update scheduler: the module state (inRenderPhase, shouldMerge,
 * oldChildren), performUpdater, unstable_batchedUpdates, updateRoot,
 * renderPage and commitWork, over the instance arena.
 *
 * The reconciler is a parameter: a RenderResult says which effect list a
 * render pass produced and which instances it removed. The host is a trace
 * of events, and the completion callback of the final setData({}, cb) is an
 * entry of `pending` that stays there until the host confirms it.
 */
module Scheduler {
  import opened Base
  import opened Events
  import opened Instances
  import opened Effects
  import opened Commit

  /** A performUpdater(inst, updater) call made by component code. */
  datatype Request = Request(inst: InstId, updater: Updater)

  /**
   * What one run of the reconciler hands back: the instances as it leaves
   * them, the performUpdater calls component code made while it ran,
   * resetEffect's list, and the instances it removed.
   */
  datatype RenderResult = RenderResult(
    after: seq<Instance>,
    requests: seq<Request>,
    effects: EffectList,
    removed: seq<InstId>)

  /** One step of the function given to unstable_batchedUpdates. */
  datatype Work =
    | Perform(inst: InstId, updater: Updater)   // performUpdater(inst, updater)
    | LifecycleWalk(effects: EffectList)        // commitLifeCycles(lastEffect)

  /** The scheduler's state as a value. */
  datatype View = View(
    inRenderPhase: bool,
    shouldMerge: bool,
    oldChildren: seq<InstId>,     // removed instances whose teardown is still due
    trace: seq<Event>,            // everything observable so far
    pending: seq<EffectList>,     // committed lists whose host callback has not come back yet
    nodes: seq<Instance>)

  /** An effect list commitWork and commitLifeCycles can walk over an arena of `n` instances. */
  predicate Committable(l: EffectList, n: nat)
  {
    WellFormed(l) && RefersWithin(l, n)
  }

  /** The parent chain of the arena is acyclic and every pending list is walkable. */
  ghost predicate Fits(v: View, rank: seq<nat>)
  {
    RankedBy(v.nodes, rank) && forall l :: l in v.pending ==> Committable(l, |v.nodes|)
  }

  /** Every request is about an instance of an arena with `n` instances. */
  predicate RequestsFit(reqs: seq<Request>, n: nat)
  {
    forall k :: 0 <= k < |reqs| ==> reqs[k].inst < n
  }

  /** A render pass over an arena of `n` instances: same size, acyclic under the same rank, walkable list. */
  ghost predicate PassFits(pass: RenderResult, n: nat, rank: seq<nat>)
  {
    && Committable(pass.effects, n) && |pass.after| == n && RankedBy(pass.after, rank)
    && RequestsFit(pass.requests, n)
  }

  /** Every step of `work` is about an instance of an arena with `n` instances. */
  predicate WorkFits(work: seq<Work>, n: nat)
  {
    forall w :: w in work ==> (w.Perform? ==> w.inst < n) && (w.LifecycleWalk? ==> Committable(w.effects, n))
  }

  /** The trace of `r` continues that of `v`: nothing already observed is taken back. */
  predicate Extends(v: View, r: View)
  {
    |v.trace| <= |r.trace| && r.trace[..|v.trace|] == v.trace
  }

  /** performUpdater while a guard is set: the updater is queued and the path to the root marked. */
  ghost function QueueAndMark(s: seq<Instance>, i: InstId, u: Updater, rank: seq<nat>): (r: seq<Instance>)
    requires RankedBy(s, rank) && i < |s|
    ensures RankedBy(r, rank)
  {
    var queued := Enqueue(s, i, u);
    assert RankedBy(queued, rank) by {
      assert forall j :: 0 <= j < |queued| ==> queued[j].parent == s[j].parent;
    }
    SetUpdateTag(queued, i, rank)
  }

  /** The requests of `reqs`, one after the other, each only queuing and marking. */
  ghost function QueueAll(s: seq<Instance>, reqs: seq<Request>, rank: seq<nat>): (r: seq<Instance>)
    requires RankedBy(s, rank) && RequestsFit(reqs, |s|)
    ensures RankedBy(r, rank)
    decreases |reqs|
  {
    if reqs == [] then s
    else
      var last := reqs[|reqs| - 1];
      QueueAndMark(QueueAll(s, reqs[..|reqs| - 1], rank), last.inst, last.updater, rank)
  }

  /**
   * The arena after a render pass: the reconciler's own writes, then the
   * requests component code made during the pass, which only queue and mark
   * because inRenderPhase is set.
   */
  ghost function Rendered(pass: RenderResult, rank: seq<nat>): (r: seq<Instance>)
    requires RankedBy(pass.after, rank) && RequestsFit(pass.requests, |pass.after|)
    ensures RankedBy(r, rank)
  {
    QueueAll(pass.after, pass.requests, rank)
  }

  /** invokeWillUnmount(children): one teardown per removed instance, in order. */
  function Unmounts(children: seq<InstId>): (t: seq<Event>)
    ensures |t| == |children|
    ensures forall k :: 0 <= k < |t| ==> t[k] == WillUnmount(children[k])
  {
    seq(|children|, k requires 0 <= k < |children| => WillUnmount(children[k]))
  }

  /** commitWork(firstEffect, lastEffect) on the view: host events, released `_or`, a pending callback. */
  function CommitView(v: View, l: EffectList, cp: ChangePath): (r: View)
    requires Committable(l, |v.nodes|)
    ensures SameButOld(v.nodes, r.nodes)
  {
    var (events, nodes) := CommitSpec(v.nodes, l, cp);
    v.(trace := v.trace + events, nodes := nodes,
       pending := if l.first.None? then v.pending else v.pending + [l])
  }

  /**
   * updateRoot(): nothing while a batch is open or a render is under way;
   * otherwise one render pass, the teardown of every removed instance,
   * oldChildren emptied, and the commit of the new effect list on the
   * instances as the render left them.
   */
  ghost function UpdateRootSpec(v: View, pass: RenderResult, cp: ChangePath, rank: seq<nat>): (r: View)
    requires Fits(v, rank) && PassFits(pass, |v.nodes|, rank)
    ensures Fits(r, rank) && |r.nodes| == |v.nodes| && Extends(v, r)
    ensures r.shouldMerge == v.shouldMerge && r.inRenderPhase == v.inRenderPhase
    ensures !v.shouldMerge && !v.inRenderPhase ==> SameButOld(Rendered(pass, rank), r.nodes)
  {
    if v.shouldMerge || v.inRenderPhase then v
    else
      var removed := v.oldChildren + pass.removed;
      var rendered := v.(trace := v.trace + [RenderPass] + Unmounts(removed), oldChildren := [],
                         nodes := Rendered(pass, rank));
      var r := CommitView(rendered, pass.effects, cp);
      assert RankedBy(r.nodes, rank) by {
        assert forall j :: 0 <= j < |r.nodes| ==> r.nodes[j].parent == rendered.nodes[j].parent;
      }
      r
  }

  /** renderPage: one render pass with no guard, no teardown, then the commit. */
  ghost function RenderPageSpec(v: View, pass: RenderResult, cp: ChangePath, rank: seq<nat>): (r: View)
    requires Fits(v, rank) && PassFits(pass, |v.nodes|, rank)
    ensures Fits(r, rank) && |r.nodes| == |v.nodes| && Extends(v, r)
    ensures SameButOld(Rendered(pass, rank), r.nodes)
  {
    var rendered := v.(inRenderPhase := false, trace := v.trace + [RenderPass],
                       oldChildren := v.oldChildren + pass.removed, nodes := Rendered(pass, rank));
    var r := CommitView(rendered, pass.effects, cp);
    assert RankedBy(r.nodes, rank) by {
      assert forall j :: 0 <= j < |r.nodes| ==> r.nodes[j].parent == rendered.nodes[j].parent;
    }
    r
  }

  /** performUpdater(inst, updater): queue it, mark the path to the root, then updateRoot(). */
  ghost function PerformSpec(v: View, i: InstId, u: Updater, pass: RenderResult, cp: ChangePath, rank: seq<nat>): (r: View)
    requires Fits(v, rank) && i < |v.nodes| && PassFits(pass, |v.nodes|, rank)
    ensures Fits(r, rank) && |r.nodes| == |v.nodes| && Extends(v, r)
    ensures r.shouldMerge == v.shouldMerge && r.inRenderPhase == v.inRenderPhase
  {
    UpdateRootSpec(v.(nodes := QueueAndMark(v.nodes, i, u, rank)), pass, cp, rank)
  }

  /** One step of a batched function. */
  ghost function RunOne(v: View, w: Work, pass: RenderResult, cp: ChangePath, rank: seq<nat>): (r: View)
    requires Fits(v, rank) && WorkFits([w], |v.nodes|) && PassFits(pass, |v.nodes|, rank)
    ensures Fits(r, rank) && |r.nodes| == |v.nodes| && Extends(v, r)
    ensures r.shouldMerge == v.shouldMerge && r.inRenderPhase == v.inRenderPhase
  {
    assert w in [w];
    match w
    case Perform(i, u) => PerformSpec(v, i, u, pass, cp, rank)
    case LifecycleWalk(l) => v.(trace := v.trace + Lifecycles(v.nodes, l))
  }

  /** The steps of a batched function, one after the other. */
  ghost function RunSpec(v: View, work: seq<Work>, pass: RenderResult, cp: ChangePath, rank: seq<nat>): (r: View)
    requires Fits(v, rank) && WorkFits(work, |v.nodes|) && PassFits(pass, |v.nodes|, rank)
    ensures Fits(r, rank) && |r.nodes| == |v.nodes| && Extends(v, r)
    ensures r.shouldMerge == v.shouldMerge && r.inRenderPhase == v.inRenderPhase
    decreases |work|
  {
    if work == [] then v
    else
      var last := work[|work| - 1];
      assert last in work;
      var prev := RunSpec(v, work[..|work| - 1], pass, cp, rank);
      RunOne(prev, last, pass, cp, rank)
  }

  /**
   * unstable_batchedUpdates(func): a nested call runs func and nothing else;
   * an outermost one runs func with shouldMerge set, clears it, then calls
   * updateRoot() once.
   */
  ghost function BatchSpec(v: View, work: seq<Work>, pass: RenderResult, cp: ChangePath, rank: seq<nat>): (r: View)
    requires Fits(v, rank) && WorkFits(work, |v.nodes|) && PassFits(pass, |v.nodes|, rank)
    ensures Fits(r, rank) && |r.nodes| == |v.nodes| && Extends(v, r)
  {
    if v.shouldMerge then RunSpec(v, work, pass, cp, rank)
    else
      var ran := RunSpec(v.(shouldMerge := true), work, pass, cp, rank);
      UpdateRootSpec(ran.(shouldMerge := false), pass, cp, rank)
  }

  /**
   * The host calls back the k-th pending setData({}, cb): cb runs
   * unstable_batchedUpdates over commitLifeCycles(lastEffect) followed by
   * whatever the hooks and callbacks request.
   */
  ghost function HostConfirmSpec(v: View, k: nat, work: seq<Work>, pass: RenderResult, cp: ChangePath, rank: seq<nat>): (r: View)
    requires Fits(v, rank) && k < |v.pending| && WorkFits(work, |v.nodes|) && PassFits(pass, |v.nodes|, rank)
    ensures Fits(r, rank) && |r.nodes| == |v.nodes| && Extends(v, r)
  {
    var l := v.pending[k];
    assert l in v.pending;
    var rest := v.(pending := v.pending[..k] + v.pending[k + 1..]);
    assert forall x :: x in rest.pending ==> x in v.pending;
    BatchSpec(rest, [LifecycleWalk(l)] + work, pass, cp, rank)
  }

  // ---------------------------------------------------------------------------
  // Lemmas about the scheduler
  // ---------------------------------------------------------------------------

  /** invokeWillUnmount tears down exactly the given instances, in order, and renders nothing. */
  lemma {:induction false} UnmountsTearDown(children: seq<InstId>)
    ensures Teardowns(Unmounts(children)) == children
    ensures Renders(Unmounts(children)) == 0
    decreases |children|
  {
    RendersZero(Unmounts(children));
    if children != [] {
      var n := |children| - 1;
      var u := Unmounts(children);
      assert u[..n] == Unmounts(children[..n]);
      UnmountsTearDown(children[..n]);
      assert children[..n] + [children[n]] == children;
    }
  }

  /** commitWork neither renders nor tears anything down. */
  lemma CommitQuiet(nodes: seq<Instance>, l: EffectList, cp: ChangePath)
    requires Committable(l, |nodes|)
    ensures Quiet(CommitSpec(nodes, l, cp).0)
  {
    CommitShape(nodes, l, cp);
    var ev := CommitSpec(nodes, l, cp).0;
    if l.first.Some? {
      var mid := ev[1..|ev| - 2];
      forall k | 0 <= k < |ev| ensures !ev[k].RenderPass? && !ev[k].WillUnmount? {
        if 1 <= k < |ev| - 2 {
          assert ev[k] == mid[k - 1];
        }
      }
    }
  }

  /** commitLifeCycles neither renders nor tears anything down. */
  lemma LifecyclesQuiet(nodes: seq<Instance>, l: EffectList)
    requires RefersWithin(l, |nodes|)
    ensures Quiet(Lifecycles(nodes, l))
  {
    CommittableVisitable(nodes, l);
    LifecycleOnlyHooks(nodes, l.records, Reverse(ForwardOrder(l)));
  }

  /** Every teardown in the trace comes before every setData. */
  predicate TeardownBeforeSetData(t: seq<Event>)
  {
    forall a, b :: 0 <= a < |t| && 0 <= b < |t| && t[a].WillUnmount? && t[b].SetData? ==> a < b
  }

  /** The events one run of updateRoot appends (a render, the teardowns, a quiet commit) render once. */
  lemma RunEventsRenders(prefix: seq<Event>, removed: seq<InstId>, c: seq<Event>)
    requires Quiet(c)
    ensures Renders(prefix + ([RenderPass] + Unmounts(removed) + c)) == Renders(prefix) + 1
  {
    var u := Unmounts(removed);
    UnmountsTearDown(removed);
    QuietCounts(c);
    RendersAppend([RenderPass], u);
    RendersAppend([RenderPass] + u, c);
    RendersAppend(prefix, [RenderPass] + u + c);
    assert Renders([RenderPass]) == 1 by {
      assert [RenderPass][1..] == [];
    }
  }

  /** Those events tear down exactly the removed instances, in order. */
  lemma RunEventsTeardowns(prefix: seq<Event>, removed: seq<InstId>, c: seq<Event>)
    requires Quiet(c)
    ensures Teardowns(prefix + ([RenderPass] + Unmounts(removed) + c)) == Teardowns(prefix) + removed
  {
    var u := Unmounts(removed);
    UnmountsTearDown(removed);
    QuietCounts(c);
    TeardownsAppend([RenderPass], u);
    TeardownsAppend([RenderPass] + u, c);
    TeardownsAppend(prefix, [RenderPass] + u + c);
    assert Teardowns([RenderPass]) == [] by {
      assert [RenderPass][..0] == [];
    }
  }

  /** In those events every teardown comes before every setData. */
  lemma RunEventsOrder(removed: seq<InstId>, c: seq<Event>)
    requires Quiet(c)
    ensures TeardownBeforeSetData([RenderPass] + Unmounts(removed) + c)
  {
    var u := Unmounts(removed);
    var suffix := [RenderPass] + u + c;
    assert forall k :: 1 <= k < 1 + |u| ==> suffix[k] == u[k - 1];
    assert forall k :: 1 + |u| <= k < |suffix| ==> suffix[k] == c[k - 1 - |u|];
  }

  /**
   * When updateRoot() runs (no batch open, no render under way): it renders
   * exactly once, first; it tears down every instance removed since the last
   * run, once each and before any host node receives data; afterwards
   * oldChildren is empty and inRenderPhase is false.
   */
  lemma UpdateRootRuns(v: View, pass: RenderResult, cp: ChangePath, rank: seq<nat>)
    requires Fits(v, rank) && PassFits(pass, |v.nodes|, rank)
    requires !v.shouldMerge && !v.inRenderPhase
    ensures var r := UpdateRootSpec(v, pass, cp, rank);
      && !r.inRenderPhase && !r.shouldMerge && r.oldChildren == []
      && r.trace[|v.trace|] == RenderPass
      && Renders(r.trace) == Renders(v.trace) + 1
      && Teardowns(r.trace) == Teardowns(v.trace) + (v.oldChildren + pass.removed)
      && TeardownBeforeSetData(r.trace[|v.trace|..])
  {
    var removed := v.oldChildren + pass.removed;
    var nodes := Rendered(pass, rank);
    var c := CommitSpec(nodes, pass.effects, cp).0;
    var suffix := [RenderPass] + Unmounts(removed) + c;
    var r := UpdateRootSpec(v, pass, cp, rank);
    assert r.trace == v.trace + suffix;
    assert r.trace[|v.trace|..] == suffix;
    CommitQuiet(nodes, pass.effects, cp);
    RunEventsRenders(v.trace, removed, c);
    RunEventsTeardowns(v.trace, removed, c);
    RunEventsOrder(removed, c);
  }

  /**
   * renderPage renders once with no guard and leaves inRenderPhase false; it
   * tears nothing down: the instances it removed wait in oldChildren for the
   * next updateRoot().
   */
  lemma RenderPageDefersTeardown(v: View, pass: RenderResult, cp: ChangePath, rank: seq<nat>)
    requires Fits(v, rank) && PassFits(pass, |v.nodes|, rank)
    ensures var r := RenderPageSpec(v, pass, cp, rank);
      && !r.inRenderPhase && r.oldChildren == v.oldChildren + pass.removed
      && Renders(r.trace) == Renders(v.trace) + 1
      && Teardowns(r.trace) == Teardowns(v.trace)
  {
    var nodes := Rendered(pass, rank);
    var c := CommitSpec(nodes, pass.effects, cp).0;
    var r := RenderPageSpec(v, pass, cp, rank);
    assert r.trace == v.trace + ([RenderPass] + c);
    CommitQuiet(nodes, pass.effects, cp);
    QuietCounts(c);
    RendersAppend(v.trace, [RenderPass] + c);
    RendersAppend([RenderPass], c);
    TeardownsAppend(v.trace, [RenderPass] + c);
    TeardownsAppend([RenderPass], c);
    assert Teardowns([RenderPass]) == [] by {
      assert [RenderPass][..0] == [];
    }
  }

  /** Queuing and marking appends to one queue and only ever sets dirty flags. */
  lemma QueueAndMarkGrows(s: seq<Instance>, i: InstId, u: Updater, rank: seq<nat>)
    requires RankedBy(s, rank) && i < |s|
    ensures var r := QueueAndMark(s, i, u, rank);
      && |r| == |s| && r[i].didSelfUpdate
      && forall j :: 0 <= j < |s| ==>
           && r[j].updateQueue == s[j].updateQueue + (if j == i then [u] else [])
           && (s[j].didSelfUpdate ==> r[j].didSelfUpdate)
           && (s[j].didChildUpdate ==> r[j].didChildUpdate)
  {
    var queued := Enqueue(s, i, u);
    assert RankedBy(queued, rank) by {
      assert forall j :: 0 <= j < |queued| ==> queued[j].parent == s[j].parent;
    }
    SetUpdateTagExact(queued, i, rank);
  }

  /** After a run of requests, each one's updater is queued on its instance, which is dirty. */
  lemma {:induction false} QueueAllKeeps(s: seq<Instance>, reqs: seq<Request>, rank: seq<nat>)
    requires RankedBy(s, rank) && RequestsFit(reqs, |s|)
    ensures var r := QueueAll(s, reqs, rank);
      && |r| == |s|
      && forall k :: 0 <= k < |reqs| ==>
           reqs[k].updater in r[reqs[k].inst].updateQueue && r[reqs[k].inst].didSelfUpdate
    decreases |reqs|
  {
    if reqs != [] {
      var n := |reqs| - 1;
      assert RequestsFit(reqs[..n], |s|);
      QueueAllKeeps(s, reqs[..n], rank);
      var prev := QueueAll(s, reqs[..n], rank);
      var r := QueueAll(s, reqs, rank);
      assert r == QueueAndMark(prev, reqs[n].inst, reqs[n].updater, rank);
      forall k | 0 <= k < |reqs|
        ensures reqs[k].updater in r[reqs[k].inst].updateQueue && r[reqs[k].inst].didSelfUpdate
      {
        if k < n {
          assert reqs[k] == reqs[..n][k];
        }
        QueueAndMarkKeeps(prev, reqs[n].inst, reqs[n].updater, rank, reqs[k]);
      }
    }
  }

  /** Queuing and marking keeps a request that was already queued and dirty, and settles the new one. */
  lemma QueueAndMarkKeeps(s: seq<Instance>, i: InstId, u: Updater, rank: seq<nat>, q: Request)
    requires RankedBy(s, rank) && i < |s| && q.inst < |s|
    requires q == Request(i, u) || (q.updater in s[q.inst].updateQueue && s[q.inst].didSelfUpdate)
    ensures var r := QueueAndMark(s, i, u, rank);
      q.updater in r[q.inst].updateQueue && r[q.inst].didSelfUpdate
  {
    QueueAndMarkGrows(s, i, u, rank);
    var r := QueueAndMark(s, i, u, rank);
    assert r[q.inst].updateQueue == s[q.inst].updateQueue + (if q.inst == i then [u] else []);
  }

  /**
   * The performUpdater calls component code makes during updateRoot's render
   * only queue and mark: when updateRoot() returns, each such updater is still
   * queued on its instance and the instance is still dirty. updateRoot itself
   * starts no further pass for them.
   */
  lemma RenderRequestsStayQueued(v: View, pass: RenderResult, cp: ChangePath, rank: seq<nat>)
    requires Fits(v, rank) && PassFits(pass, |v.nodes|, rank)
    requires !v.shouldMerge && !v.inRenderPhase
    ensures var r := UpdateRootSpec(v, pass, cp, rank);
      forall k :: 0 <= k < |pass.requests| ==>
        && pass.requests[k].updater in r.nodes[pass.requests[k].inst].updateQueue
        && r.nodes[pass.requests[k].inst].didSelfUpdate
  {
    QueueAllKeeps(pass.after, pass.requests, rank);
  }

  /** The updaters `work` queues on instance j, in order. */
  function QueuedFor(work: seq<Work>, j: InstId): seq<Updater>
  {
    if work == [] then []
    else
      var last := work[|work| - 1];
      QueuedFor(work[..|work| - 1], j) + (if last.Perform? && last.inst == j then [last.updater] else [])
  }

  /** Every instance's queue grew by exactly what `work` queued on it. */
  predicate QueuesGrew(before: seq<Instance>, after: seq<Instance>, work: seq<Work>)
  {
    |after| == |before| &&
    forall j :: 0 <= j < |before| ==> after[j].updateQueue == before[j].updateQueue + QueuedFor(work, j)
  }

  /**
   * While a batch is open or a render is under way, performUpdater(inst,
   * updater) appends the updater to inst's queue, changes no other queue, and
   * renders, commits and tears down nothing. With both guards off it renders
   * exactly once, and the instances are those the render left, with `_or`
   * released by the commit.
   */
  lemma PerformUpdaterQueues(v: View, i: InstId, u: Updater, pass: RenderResult, cp: ChangePath, rank: seq<nat>)
    requires Fits(v, rank) && i < |v.nodes| && PassFits(pass, |v.nodes|, rank)
    ensures var r := PerformSpec(v, i, u, pass, cp, rank);
      && (v.shouldMerge || v.inRenderPhase ==>
            && QueuesGrew(v.nodes, r.nodes, [Perform(i, u)])
            && r.trace == v.trace && r.pending == v.pending && r.oldChildren == v.oldChildren)
      && (!v.shouldMerge && !v.inRenderPhase ==>
            && Renders(r.trace) == Renders(v.trace) + 1
            && SameButOld(Rendered(pass, rank), r.nodes))
  {
    var queued := Enqueue(v.nodes, i, u);
    assert RankedBy(queued, rank) by {
      assert forall j :: 0 <= j < |queued| ==> queued[j].parent == v.nodes[j].parent;
    }
    SetUpdateTagExact(queued, i, rank);
    assert [Perform(i, u)][..0] == [];
    if !v.shouldMerge && !v.inRenderPhase {
      UpdateRootRuns(v.(nodes := QueueAndMark(v.nodes, i, u, rank)), pass, cp, rank);
    }
  }

  /** While a batch is open or a render is under way, performUpdater only queues and marks. */
  lemma PerformWhileGuarded(v: View, i: InstId, u: Updater, pass: RenderResult, cp: ChangePath, rank: seq<nat>)
    requires Fits(v, rank) && i < |v.nodes| && PassFits(pass, |v.nodes|, rank)
    requires v.shouldMerge || v.inRenderPhase
    ensures PerformSpec(v, i, u, pass, cp, rank) == v.(nodes := QueueAndMark(v.nodes, i, u, rank))
  {
  }

  /**
   * If every marked instance had a marked parent, then after
   * performUpdater(inst, updater) under a guard inst is dirty, every ancestor
   * of inst is marked, and the arena is still closed in that sense.
   */
  lemma PerformUpdaterMarks(v: View, i: InstId, u: Updater, pass: RenderResult, cp: ChangePath, rank: seq<nat>)
    requires Fits(v, rank) && i < |v.nodes| && PassFits(pass, |v.nodes|, rank)
    requires Closed(v.nodes)
    ensures var r := PerformSpec(v, i, u, pass, cp, rank);
      v.shouldMerge || v.inRenderPhase ==>
        && r.nodes[i].didSelfUpdate
        && Closed(r.nodes)
        && forall a :: a in Ancestors(v.nodes, v.nodes[i].parent, rank) ==> r.nodes[a].didChildUpdate
  {
    var queued := Enqueue(v.nodes, i, u);
    assert forall j :: 0 <= j < |queued| ==> queued[j].parent == v.nodes[j].parent;
    assert RankedBy(queued, rank);
    assert Closed(queued);
    SetUpdateTagMarksRootPath(queued, i, rank);
    AncestorsSameParents(v.nodes, queued, v.nodes[i].parent, rank);
  }

  /** Queue growth composes: what the prefix of `work` queued, then what its last step queued. */
  lemma QueuesGrewSnoc(a: seq<Instance>, b: seq<Instance>, c: seq<Instance>, work: seq<Work>)
    requires work != []
    requires QueuesGrew(a, b, work[..|work| - 1]) && QueuesGrew(b, c, [work[|work| - 1]])
    ensures QueuesGrew(a, c, work)
  {
    var n := |work| - 1;
    assert [work[n]][..0] == [];
    forall j | 0 <= j < |a| ensures c[j].updateQueue == a[j].updateQueue + QueuedFor(work, j) {
      assert QueuedFor(work, j) == QueuedFor(work[..n], j) + QueuedFor([work[n]], j);
    }
  }

  /** One step of a batched function, run with shouldMerge set, queues what it asks for. */
  lemma RunOneQueues(v: View, w: Work, pass: RenderResult, cp: ChangePath, rank: seq<nat>)
    requires Fits(v, rank) && WorkFits([w], |v.nodes|) && PassFits(pass, |v.nodes|, rank)
    requires v.shouldMerge
    ensures QueuesGrew(v.nodes, RunOne(v, w, pass, cp, rank).nodes, [w])
  {
    assert w in [w];
    assert [w][..0] == [];
    if w.Perform? {
      PerformUpdaterQueues(v, w.inst, w.updater, pass, cp, rank);
    }
  }

  /** A batched function queues, on every instance, exactly the updaters it asks for, in order. */
  lemma {:induction false} RunQueues(v: View, work: seq<Work>, pass: RenderResult, cp: ChangePath, rank: seq<nat>)
    requires Fits(v, rank) && WorkFits(work, |v.nodes|) && PassFits(pass, |v.nodes|, rank)
    requires v.shouldMerge
    ensures QueuesGrew(v.nodes, RunSpec(v, work, pass, cp, rank).nodes, work)
    decreases |work|
  {
    if work != [] {
      var n := |work| - 1;
      var w := work[n];
      assert w in work;
      assert WorkFits(work[..n], |v.nodes|);
      RunQueues(v, work[..n], pass, cp, rank);
      var prev := RunSpec(v, work[..n], pass, cp, rank);
      RunOneQueues(prev, w, pass, cp, rank);
      assert RunSpec(v, work, pass, cp, rank) == RunOne(prev, w, pass, cp, rank);
      QueuesGrewSnoc(v.nodes, prev.nodes, RunOne(prev, w, pass, cp, rank).nodes, work);
    }
  }

  /**
   * A batch queues, on every instance, exactly the updaters its function asks
   * for, in order, and that is what it leaves when no render follows (a nested
   * call, or a render already under way). When the final updateRoot() does
   * run, the instances are those its render left.
   */
  lemma BatchQueues(v: View, work: seq<Work>, pass: RenderResult, cp: ChangePath, rank: seq<nat>)
    requires Fits(v, rank) && WorkFits(work, |v.nodes|) && PassFits(pass, |v.nodes|, rank)
    ensures var r := BatchSpec(v, work, pass, cp, rank);
      && (v.shouldMerge || v.inRenderPhase ==> QueuesGrew(v.nodes, r.nodes, work))
      && (!v.shouldMerge && !v.inRenderPhase ==> SameButOld(Rendered(pass, rank), r.nodes))
  {
    var start := if v.shouldMerge then v else v.(shouldMerge := true);
    RunQueues(start, work, pass, cp, rank);
  }

  /** Inside an open batch: nothing renders or is torn down, and the guards, oldChildren and pending stay. */
  predicate MergedRun(v: View, r: View)
  {
    && r.shouldMerge == v.shouldMerge && r.inRenderPhase == v.inRenderPhase
    && r.oldChildren == v.oldChildren && r.pending == v.pending
    && Extends(v, r) && Quiet(r.trace[|v.trace|..])
  }

  lemma MergedRunTrans(a: View, b: View, c: View)
    requires MergedRun(a, b) && MergedRun(b, c)
    ensures MergedRun(a, c)
  {
    var x, y := b.trace[|a.trace|..], c.trace[|b.trace|..];
    assert b.trace == a.trace + x;
    assert c.trace == b.trace + y;
    QuietAppend(x, y);
    assert c.trace[|a.trace|..] == x + y;
  }

  /** One step of a function run while shouldMerge is set neither renders nor tears down. */
  lemma RunOneMerged(v: View, w: Work, pass: RenderResult, cp: ChangePath, rank: seq<nat>)
    requires Fits(v, rank) && WorkFits([w], |v.nodes|) && PassFits(pass, |v.nodes|, rank)
    requires v.shouldMerge
    ensures MergedRun(v, RunOne(v, w, pass, cp, rank))
  {
    assert w in [w];
    var r := RunOne(v, w, pass, cp, rank);
    if w.LifecycleWalk? {
      LifecyclesQuiet(v.nodes, w.effects);
      assert r.trace[|v.trace|..] == Lifecycles(v.nodes, w.effects);
    } else {
      assert r.trace[|v.trace|..] == [];
    }
  }

  /** Every step of a function run while shouldMerge is set defers its render to the end of the batch. */
  lemma {:induction false} RunMerged(v: View, work: seq<Work>, pass: RenderResult, cp: ChangePath, rank: seq<nat>)
    requires Fits(v, rank) && WorkFits(work, |v.nodes|) && PassFits(pass, |v.nodes|, rank)
    requires v.shouldMerge
    ensures MergedRun(v, RunSpec(v, work, pass, cp, rank))
    decreases |work|
  {
    if work == [] {
      assert v.trace[|v.trace|..] == [];
    } else {
      var n := |work| - 1;
      var w := work[n];
      assert w in work;
      assert WorkFits(work[..n], |v.nodes|);
      RunMerged(v, work[..n], pass, cp, rank);
      var prev := RunSpec(v, work[..n], pass, cp, rank);
      RunOneMerged(prev, w, pass, cp, rank);
      MergedRunTrans(v, prev, RunOne(prev, w, pass, cp, rank));
    }
  }

  /**
   * unstable_batchedUpdates(func) renders at most once however many updates
   * func asks for: a nested call renders nothing and leaves oldChildren as it
   * was; an outermost call renders exactly once (unless a render is already
   * under way), after func, and leaves shouldMerge false.
   */
  lemma BatchRendersAtMostOnce(v: View, work: seq<Work>, pass: RenderResult, cp: ChangePath, rank: seq<nat>)
    requires Fits(v, rank) && WorkFits(work, |v.nodes|) && PassFits(pass, |v.nodes|, rank)
    ensures var r := BatchSpec(v, work, pass, cp, rank);
      && r.shouldMerge == v.shouldMerge
      && Renders(r.trace) == Renders(v.trace) + (if v.shouldMerge || v.inRenderPhase then 0 else 1)
      && (v.shouldMerge ==> r.oldChildren == v.oldChildren && Teardowns(r.trace) == Teardowns(v.trace))
      && (!v.shouldMerge && !v.inRenderPhase ==> r.oldChildren == [] && !r.inRenderPhase)
  {
    var start := if v.shouldMerge then v else v.(shouldMerge := true);
    RunMerged(start, work, pass, cp, rank);
    var ran := RunSpec(start, work, pass, cp, rank);
    var added := ran.trace[|v.trace|..];
    assert ran.trace == v.trace + added;
    QuietCounts(added);
    RendersAppend(v.trace, added);
    TeardownsAppend(v.trace, added);
    if !v.shouldMerge && !v.inRenderPhase {
      UpdateRootRuns(ran.(shouldMerge := false), pass, cp, rank);
    }
  }

  /** The steps of `work` fit an arena exactly when those of both halves do. */
  lemma WorkFitsSplit(a: seq<Work>, b: seq<Work>, n: nat)
    ensures WorkFits(a + b, n) <==> WorkFits(a, n) && WorkFits(b, n)
  {
    assert forall w :: w in a + b <==> w in a || w in b;
  }

  /** Running one more step is running the steps so far, then that step. */
  lemma RunSnoc(v: View, work: seq<Work>, w: Work, pass: RenderResult, cp: ChangePath, rank: seq<nat>)
    requires Fits(v, rank) && WorkFits(work + [w], |v.nodes|) && PassFits(pass, |v.nodes|, rank)
    ensures WorkFits(work, |v.nodes|) && WorkFits([w], |v.nodes|)
    ensures RunSpec(v, work + [w], pass, cp, rank) == RunOne(RunSpec(v, work, pass, cp, rank), w, pass, cp, rank)
  {
    WorkFitsSplit(work, [w], |v.nodes|);
    assert (work + [w])[..|work|] == work;
  }

  /** The first j+1 steps of a batched function are its first j steps, then step j. */
  lemma RunPrefixStep(v: View, work: seq<Work>, j: nat, pass: RenderResult, cp: ChangePath, rank: seq<nat>)
    requires Fits(v, rank) && WorkFits(work, |v.nodes|) && PassFits(pass, |v.nodes|, rank) && j < |work|
    ensures WorkFits(work[..j], |v.nodes|) && WorkFits(work[..j + 1], |v.nodes|) && WorkFits([work[j]], |v.nodes|)
    ensures RunSpec(v, work[..j + 1], pass, cp, rank) == RunOne(RunSpec(v, work[..j], pass, cp, rank), work[j], pass, cp, rank)
  {
    assert work[j] in work;
    assert work[..j + 1][..j] == work[..j];
  }

  /** Running `a` then `b` is running `a + b`. */
  lemma {:induction false} RunSplit(v: View, a: seq<Work>, b: seq<Work>, pass: RenderResult, cp: ChangePath, rank: seq<nat>)
    requires Fits(v, rank) && WorkFits(a + b, |v.nodes|) && PassFits(pass, |v.nodes|, rank)
    ensures WorkFits(a, |v.nodes|) && WorkFits(b, |v.nodes|)
    ensures RunSpec(v, a + b, pass, cp, rank) == RunSpec(RunSpec(v, a, pass, cp, rank), b, pass, cp, rank)
    decreases |b|
  {
    WorkFitsSplit(a, b, |v.nodes|);
    if b == [] {
      assert a + b == a;
    } else {
      var n := |b| - 1;
      var init, w := b[..n], b[n];
      assert b == init + [w];
      assert a + b == (a + init) + [w];
      WorkFitsSplit(a + init, [w], |v.nodes|);
      WorkFitsSplit(a, init, |v.nodes|);
      RunSplit(v, a, init, pass, cp, rank);
      var mid := RunSpec(v, a, pass, cp, rank);
      RunSnoc(v, a + init, w, pass, cp, rank);
      RunSnoc(mid, init, w, pass, cp, rank);
    }
  }

  lemma ExtendsTrans(a: View, b: View, c: View)
    requires Extends(a, b) && Extends(b, c)
    ensures Extends(a, c)
  {
    assert c.trace[..|a.trace|] == c.trace[..|b.trace|][..|a.trace|];
  }

  /** A batch whose function starts with `w` first does what `w` does with shouldMerge set. */
  lemma BatchStartsWith(v: View, w: Work, work: seq<Work>, pass: RenderResult, cp: ChangePath, rank: seq<nat>)
    requires Fits(v, rank) && WorkFits([w] + work, |v.nodes|) && PassFits(pass, |v.nodes|, rank)
    ensures WorkFits([w], |v.nodes|)
    ensures Extends(RunOne(v.(shouldMerge := true), w, pass, cp, rank), BatchSpec(v, [w] + work, pass, cp, rank))
  {
    assert w in [w] + work;
    var start := v.(shouldMerge := true);
    RunSplit(start, [w], work, pass, cp, rank);
    var first := RunSpec(start, [w], pass, cp, rank);
    assert [w][..0] == [];
    assert first == RunOne(start, w, pass, cp, rank);
    var ran := RunSpec(start, [w] + work, pass, cp, rank);
    assert Extends(first, ran);
    ExtendsTrans(first, ran, BatchSpec(v, [w] + work, pass, cp, rank));
  }

  /** The host's callback for the k-th commit is a batch over that commit's lifecycle walk and `work`. */
  lemma HostConfirmIsBatch(v: View, k: nat, work: seq<Work>, pass: RenderResult, cp: ChangePath, rank: seq<nat>)
    requires Fits(v, rank) && k < |v.pending| && WorkFits(work, |v.nodes|) && PassFits(pass, |v.nodes|, rank)
    ensures v.pending[k] in v.pending
    ensures var rest := v.(pending := v.pending[..k] + v.pending[k + 1..]);
      && Fits(rest, rank) && WorkFits([LifecycleWalk(v.pending[k])] + work, |v.nodes|)
      && HostConfirmSpec(v, k, work, pass, cp, rank) == BatchSpec(rest, [LifecycleWalk(v.pending[k])] + work, pass, cp, rank)
  {
    var l := v.pending[k];
    assert l in v.pending;
    var rest := v.(pending := v.pending[..k] + v.pending[k + 1..]);
    assert forall x :: x in rest.pending ==> x in v.pending;
    assert WorkFits([LifecycleWalk(l)] + work, |v.nodes|);
  }

  /**
   * When the host calls back a commit, the lifecycle hooks and callbacks of
   * that commit all run, in reverse nextEffect order, before anything they
   * request is rendered.
   */
  lemma HostConfirmHooksFirst(v: View, k: nat, work: seq<Work>, pass: RenderResult, cp: ChangePath, rank: seq<nat>)
    requires Fits(v, rank) && k < |v.pending| && WorkFits(work, |v.nodes|) && PassFits(pass, |v.nodes|, rank)
    ensures v.pending[k] in v.pending
    ensures var hooks, r := Lifecycles(v.nodes, v.pending[k]), HostConfirmSpec(v, k, work, pass, cp, rank);
      && |v.trace| + |hooks| <= |r.trace|
      && r.trace[..|v.trace| + |hooks|] == v.trace + hooks
      && Quiet(hooks)
  {
    HostConfirmIsBatch(v, k, work, pass, cp, rank);
    var l := v.pending[k];
    LifecyclesQuiet(v.nodes, l);
    var rest := v.(pending := v.pending[..k] + v.pending[k + 1..]);
    BatchStartsWith(rest, LifecycleWalk(l), work, pass, cp, rank);
    var first := RunOne(rest.(shouldMerge := true), LifecycleWalk(l), pass, cp, rank);
    assert first.trace == v.trace + Lifecycles(v.nodes, l);
  }

  /** The host's callback renders at most once, however many updates the hooks and callbacks request. */
  lemma HostConfirmRendersAtMostOnce(v: View, k: nat, work: seq<Work>, pass: RenderResult, cp: ChangePath, rank: seq<nat>)
    requires Fits(v, rank) && k < |v.pending| && WorkFits(work, |v.nodes|) && PassFits(pass, |v.nodes|, rank)
    ensures Renders(HostConfirmSpec(v, k, work, pass, cp, rank).trace) ==
            Renders(v.trace) + (if v.shouldMerge || v.inRenderPhase then 0 else 1)
  {
    HostConfirmIsBatch(v, k, work, pass, cp, rank);
    var rest := v.(pending := v.pending[..k] + v.pending[k + 1..]);
    BatchRendersAtMostOnce(rest, [LifecycleWalk(v.pending[k])] + work, pass, cp, rank);
  }

  // ---------------------------------------------------------------------------
  // The scheduler, in place
  // ---------------------------------------------------------------------------

  class UpdateStrategy {
    var inRenderPhase: bool
    var shouldMerge: bool
    var oldChildren: seq<InstId>
    var trace: seq<Event>
    var pending: seq<EffectList>
    const nodes: array<Instance>
    ghost const rank: seq<nat>
    const changePath: ChangePath

    ghost function State(): View
      reads this, nodes
    {
      View(inRenderPhase, shouldMerge, oldChildren, trace, pending, nodes[..])
    }

    ghost predicate Valid()
      reads this, nodes
    {
      Fits(State(), rank)
    }

    /** The module as loaded: both guards off, nothing removed, nothing committed. */
    constructor (nodes: array<Instance>, ghost rank: seq<nat>, changePath: ChangePath)
      requires RankedBy(nodes[..], rank)
      ensures Valid()
      ensures this.nodes == nodes && this.rank == rank && this.changePath == changePath
      ensures State() == View(false, false, [], [], [], nodes[..])
    {
      this.nodes := nodes;
      this.rank := rank;
      this.changePath := changePath;
      inRenderPhase := false;
      shouldMerge := false;
      oldChildren := [];
      trace := [];
      pending := [];
    }

    /** One iteration of commitWork's loop: the record's setData, if any, and `_or` released for UPDATE. */
    method CommitRecord(r: EffectRecord)
      requires r.inst < nodes.Length
      modifies this`trace, nodes
      ensures trace == old(trace) + CommitStep(old(nodes[..]), r, changePath).0
      ensures nodes[..] == CommitStep(old(nodes[..]), r, changePath).1
    {
      var inst := nodes[r.inst];
      if inst.isHoc || inst.myOutStyle == Some(false) {
        return;
      }
      if r.tag == Style {
        trace := trace + [SetData(r.inst, r.data)];
      }
      if r.tag == Init {
        trace := trace + [SetData(r.inst, map["_r" := inst.rendered])];
      }
      if r.tag == Update {
        var cp := changePath(inst.rendered, inst.oldRendered);
        nodes[r.inst] := inst.(oldRendered := None);
        if |cp| != 0 {
          trace := trace + [SetData(r.inst, cp)];
        }
      }
    }

    /** The loop of commitWork inside groupSetData: forward along nextEffect from the first record. */
    method CommitLoop(l: EffectList, ghost order: seq<nat>)
      requires LinkedAs(l, order) && Visitable(nodes[..], l.records, order)
      modifies this`trace, nodes
      ensures trace == old(trace) + Walk(old(nodes[..]), l.records, order, changePath).0
      ensures nodes[..] == Walk(old(nodes[..]), l.records, order, changePath).1
    {
      ghost var n0 := nodes[..];
      var effect := l.first;
      ghost var k := 0;
      while effect.Some?
        invariant 0 <= k <= |order|
        invariant effect == if k < |order| then Some(order[k]) else None
        invariant Visitable(n0, l.records, order[..k])
        invariant trace == old(trace) + Walk(n0, l.records, order[..k], changePath).0
        invariant nodes[..] == Walk(n0, l.records, order[..k], changePath).1
        decreases |order| - k
      {
        WalkSnoc(n0, l.records, order, k, changePath);
        LinkedNext(l, order, k);
        ghost var prev := Walk(n0, l.records, order[..k], changePath);
        var r := l.records[effect.value];
        ghost var step := CommitStep(prev.1, r, changePath);
        CommitRecord(r);
        assert trace == old(trace) + (prev.0 + step.0);
        effect := r.next;
        k := k + 1;
      }
      assert order[..k] == order;
    }

    /** topWx.groupSetData(...): the loop, then the final setData({}, cb), in one group. */
    method CommitGroup(l: EffectList)
      requires Committable(l, nodes.Length) && l.first.Some?
      modifies this`trace, nodes
      ensures trace == old(trace) + CommitSpec(old(nodes[..]), l, changePath).0
      ensures nodes[..] == CommitSpec(old(nodes[..]), l, changePath).1
    {
      ghost var n0 := nodes[..];
      trace := trace + [GroupBegin];
      ghost var t1 := trace;
      CommittableVisitable(n0, l);
      CommitLoop(l, ForwardOrder(l));
      ghost var w := Walk(n0, l.records, ForwardOrder(l), changePath);
      assert trace == t1 + w.0;
      trace := trace + [FinalSetData, GroupEnd];
      assert CommitSpec(n0, l, changePath) == ([GroupBegin] + w.0 + [FinalSetData, GroupEnd], w.1);
    }

    /** commitWork(firstEffect, lastEffect) */
    method CommitWork(l: EffectList)
      requires Valid() && Committable(l, nodes.Length)
      modifies this, nodes
      ensures Valid()
      ensures State() == CommitView(old(State()), l, changePath)
    {
      if l.first.None? {
        return;
      }
      CommitGroup(l);
      pending := pending + [l];    // the callback of the final setData waits for the host
      assert SameButOld(old(nodes[..]), nodes[..]);
      assert RankedBy(nodes[..], rank) by {
        assert forall j :: 0 <= j < nodes.Length ==> nodes[j].parent == old(nodes[j]).parent;
      }
    }

    /** The reconciler's own writes: the instances as the render leaves them. */
    method ApplyRender(after: seq<Instance>)
      requires |after| == nodes.Length
      modifies nodes
      ensures nodes[..] == after
    {
      for j := 0 to nodes.Length
        invariant nodes[..j] == after[..j]
      {
        nodes[j] := after[j];
      }
    }

    /**
     * The performUpdater calls component code makes during a render pass, in
     * order; with inRenderPhase set each one stops at updateRoot's guard.
     */
    method RequestsDuringRender(pass: RenderResult)
      requires Valid() && PassFits(pass, nodes.Length, rank) && inRenderPhase
      modifies this, nodes
      ensures Valid()
      ensures State() == old(State()).(nodes := QueueAll(old(nodes[..]), pass.requests, rank))
      decreases 0, 2
    {
      ghost var v0 := State();
      for j := 0 to |pass.requests|
        invariant Valid() && inRenderPhase
        invariant RequestsFit(pass.requests[..j], |v0.nodes|)
        invariant State() == v0.(nodes := QueueAll(v0.nodes, pass.requests[..j], rank))
      {
        var req := pass.requests[j];
        ghost var queued := QueueAll(v0.nodes, pass.requests[..j], rank);
        assert pass.requests[..j + 1][..j] == pass.requests[..j];
        assert QueueAll(v0.nodes, pass.requests[..j + 1], rank) == QueueAndMark(queued, req.inst, req.updater, rank);
        PerformWhileGuarded(State(), req.inst, req.updater, pass, changePath, rank);
        PerformUpdater(req.inst, req.updater, pass);
      }
      assert pass.requests[..|pass.requests|] == pass.requests;
    }

    /**
     * A render pass while inRenderPhase is set: the reconciler's writes, then
     * the performUpdater calls component code makes.
     */
    method Reconcile(pass: RenderResult)
      requires Valid() && PassFits(pass, nodes.Length, rank) && inRenderPhase
      modifies this, nodes
      ensures Valid()
      ensures State() == old(State()).(trace := old(trace) + [RenderPass], nodes := Rendered(pass, rank))
      decreases 0, 3
    {
      trace := trace + [RenderPass];
      ApplyRender(pass.after);
      RequestsDuringRender(pass);
    }

    /** updateRoot() */
    method UpdateRoot(pass: RenderResult)
      requires Valid() && PassFits(pass, nodes.Length, rank)
      modifies this, nodes
      ensures Valid()
      ensures old(shouldMerge || inRenderPhase) ==> State() == old(State())
      ensures State() == UpdateRootSpec(old(State()), pass, changePath, rank)
      decreases if shouldMerge || inRenderPhase then 0 else 1, 0
    {
      if shouldMerge {
        return;
      }
      if inRenderPhase {
        return;
      }
      inRenderPhase := true;
      Reconcile(pass);                             // renderNextValidComps(mpRoot)
      oldChildren := oldChildren + pass.removed;
      inRenderPhase := false;
      trace := trace + Unmounts(oldChildren);      // invokeWillUnmount(oldChildren)
      oldChildren := [];
      CommitWork(pass.effects);
    }

    /** renderPage(pageVode, mpPageInst) */
    method RenderPage(pass: RenderResult)
      requires Valid() && PassFits(pass, nodes.Length, rank)
      modifies this, nodes
      ensures Valid()
      ensures State() == RenderPageSpec(old(State()), pass, changePath, rank)
    {
      inRenderPhase := true;
      Reconcile(pass);                             // render(pageVode, mpRoot, ...)
      oldChildren := oldChildren + pass.removed;
      inRenderPhase := false;
      CommitWork(pass.effects);
    }

    /** performUpdater(inst, updater) */
    method PerformUpdater(i: InstId, u: Updater, pass: RenderResult)
      requires Valid() && i < nodes.Length && PassFits(pass, nodes.Length, rank)
      modifies this, nodes
      ensures Valid()
      ensures State() == PerformSpec(old(State()), i, u, pass, changePath, rank)
      decreases if shouldMerge || inRenderPhase then 0 else 1, 1
    {
      PushUpdater(nodes, i, u);
      assert RankedBy(nodes[..], rank) by {
        assert forall j :: 0 <= j < nodes.Length ==> nodes[j].parent == old(nodes[j]).parent;
      }
      SetUpdateTagToRoot(nodes, rank, i);
      UpdateRoot(pass);
    }

    /** One step of a batched function: a performUpdater call or a lifecycle walk from a hook. */
    method RunStep(w: Work, pass: RenderResult)
      requires Valid() && WorkFits([w], nodes.Length) && PassFits(pass, nodes.Length, rank) && shouldMerge
      modifies this, nodes
      ensures Valid() && shouldMerge
      ensures State() == RunOne(old(State()), w, pass, changePath, rank)
    {
      assert w in [w];
      match w
      case Perform(i, u) =>
        PerformUpdater(i, u, pass);
      case LifecycleWalk(l) =>
        var calls := CommitLifeCycles(nodes[..], l);
        trace := trace + calls;
    }

    /** func(): the steps of a batched function, in order; func only runs with shouldMerge set. */
    method Run(work: seq<Work>, pass: RenderResult)
      requires Valid() && WorkFits(work, nodes.Length) && PassFits(pass, nodes.Length, rank) && shouldMerge
      modifies this, nodes
      ensures Valid()
      ensures State() == RunSpec(old(State()), work, pass, changePath, rank)
    {
      ghost var v0 := State();
      for j := 0 to |work|
        invariant Valid() && shouldMerge
        invariant WorkFits(work[..j], nodes.Length)
        invariant State() == RunSpec(v0, work[..j], pass, changePath, rank)
      {
        RunPrefixStep(v0, work, j, pass, changePath, rank);
        RunStep(work[j], pass);
      }
      assert work[..|work|] == work;
    }

    /** unstable_batchedUpdates(func) */
    method BatchedUpdates(work: seq<Work>, pass: RenderResult)
      requires Valid() && WorkFits(work, nodes.Length) && PassFits(pass, nodes.Length, rank)
      modifies this, nodes
      ensures Valid()
      ensures State() == BatchSpec(old(State()), work, pass, changePath, rank)
    {
      if shouldMerge {
        Run(work, pass);
        return;
      }
      shouldMerge := true;
      Run(work, pass);
      shouldMerge := false;
      UpdateRoot(pass);
    }

    /** The host calls back the k-th pending setData({}, cb). */
    method HostConfirm(k: nat, work: seq<Work>, pass: RenderResult)
      requires Valid() && k < |pending| && WorkFits(work, nodes.Length) && PassFits(pass, nodes.Length, rank)
      modifies this, nodes
      ensures Valid()
      ensures State() == HostConfirmSpec(old(State()), k, work, pass, changePath, rank)
    {
      var l := pending[k];
      assert l in pending;
      pending := pending[..k] + pending[k + 1..];
      assert forall x :: x in pending ==> x in old(pending);
      BatchedUpdates([LifecycleWalk(l)] + work, pass);
    }
  }
}
